=== FILE: README.md ===
# Supermarket inventory front end — a Dafny model

This project models the client-side logic of a React single-page inventory application. The
application lists products, adds them, edits them and deletes them through a REST API. The model
covers the logic that runs in the browser; the network, the renderer and the router are outside it.

- **Catalog page** (`src/components/ViewProducts.js`). The search/category filter, the stable sort
  on name, price or quantity in either order, and grouping by category (the imperative `reduce`,
  as a loop over a map) with sections in the order their categories first occur, which is what
  `Object.entries` gives for ordinary category names. Also the stock status text and class
  (`getStockStatus`), the quantity text (`formatQuantity`), the inline stock badge, the section
  titles, the search and category handlers,
  the sort handler (defined but not wired to any control) and the delete handler. The handlers
  live on a `ProductsView` class whose fields are the page's state hooks. `getStockStatus` and
  `formatQuantity` are defined but not rendered; the cards show only the badge.
- **Edit form** (`src/components/EditProduct.js`). Every input holds text. The change handler
  normalises numeric text through `parseFloat`/`parseInt` and `toString`, or rejects the keystroke.
  The validator builds the error object, the submit handler builds the `PUT` body, and the loaded
  product is turned into text. The hooks are fields of an `EditForm` class.
- **Add form** (`src/components/AddProduct.js`). Numeric inputs hold what `Number(value)` gives: a
  number, `NaN`, or the empty text. This form has its own validator, the falsy `||` defaults and
  unit clamping of the `POST` body, and the submit-button condition. The hooks are fields of an
  `AddForm` class.
- **Shell** (`src/App.js`). The navigation bar's low-stock counter and its badge, and the mobile
  menu's toggle and close handlers.

JavaScript's conversions are modelled concretely, not left abstract:
- `parseInt`, `parseFloat`, `Number(string)` and `Number.prototype.toString` are defined over
  decimal literals (`JsNumber`). A number is an exact `real`, and a parsed literal is a canonical
  `Decimal`, so "parse after print" round trips are proved.
- `trim`, `toLowerCase`, `includes` and `localeCompare` are in `JsText`.

A network call becomes a parameter that says how the call ended. A navigation is returned as the
target path. `window.confirm` is a boolean parameter. `new Date(text)` and the clock are a
function parameter `parseDate` and an instant `now`.

The model follows the code, including where it departs from the application's documented design:
- The add form stores `NaN` for unparseable numeric input; it is not rejected.
- Only the add form clamps `unit`; the edit form sends the loaded unit unchanged.
- The add form sends a minimum stock level of 0 as 10.
- A cleared error keeps its key in the error object, so the add form's submit button stays
  disabled.
- After a delete, the catalog filters its local list rather than fetching it again.
- The catalog defines `getStockStatus` and `formatQuantity` but renders neither; each card shows
  only the stock badge, whose classes use a fixed limit of 10 rather than the product's threshold.
- The catalog defines `handleSort` but no control calls it, so the page always sorts by name,
  ascending; the sort state and its handler are modelled as written.

## Model

| member | source | states |
|---|---|---|
| JsText.ToLower | src/components/ViewProducts.js:80 | lower-casing keeps the length of the text and folds each code unit on its own |
| JsText.IncludesIffOccurs | src/components/ViewProducts.js:80-82 | `includes` holds exactly when the term occurs at some position of the text |
| JsText.TrimEmptyIffBlank | src/components/EditProduct.js:61 | `trim()` gives the empty string exactly when the text is all white space, so `!name.trim()` flags exactly blank names |
| JsText.LocaleCompare | src/components/ViewProducts.js:89 | the name comparison returns -1, 0 or 1 |
| JsText.LocaleCompareAntisymmetric | src/components/ViewProducts.js:89 | swapping the names negates the comparison |
| JsText.LocaleCompareZeroIffEqual | src/components/ViewProducts.js:89 | two names compare equal exactly when they are the same text |
| JsText.LocaleCompareTransitive | src/components/ViewProducts.js:89 | the name order is transitive |
| JsNumber.ParseIntOfIntToString | src/components/EditProduct.js:95-97 | `parseInt(n.toString())` gives back `n` for every integer |
| JsNumber.ParseDecimalOfDecimalToString | src/components/EditProduct.js:95-97 | parsing the printed form of a canonical decimal gives back that decimal |
| JsNumber.ParseFloatOfIntToString | src/components/EditProduct.js:95-97 | `parseFloat` of a printed integer is that integer |
| JsNumber.Truncate | src/components/AddProduct.js:113 | `parseInt` of a number is the whole number within 1 of it on the side toward zero |
| Seqs.FilterMembership | src/components/ViewProducts.js:79-85 | an element survives `filter` exactly when it is in the list and passes the test |
| Seqs.FilterCount | src/components/ViewProducts.js:79-85 | `filter` keeps every occurrence of a passing element and no occurrence of a failing one |
| Catalog.FilterSpec | src/components/ViewProducts.js:78-85 | a product is shown exactly when its name, brand or description contains the term (ignoring case) and its category is the selected one or none is selected; survivors keep their multiplicity |
| Catalog.EmptyFilterKeepsAll | src/components/ViewProducts.js:78-85 | an empty term and no category show every product in order |
| Catalog.NoCategoryFiltersBySearchOnly | src/components/ViewProducts.js:83 | with no category selected only the search decides |
| Catalog.EmptySearchFiltersByCategoryOnly | src/components/ViewProducts.js:80-84 | with an empty term only the category decides |
| Catalog.UnitDisplay | src/components/ViewProducts.js:139-154 | the unit text is `kg`, `L`, `box`, `pack` for the four known units and `pcs` for anything else |
| Catalog.FormatQuantityReadsBack | src/components/ViewProducts.js:134-157 | `parseInt` of the formatted quantity gives back the quantity |
| Catalog.GetStockStatus | src/components/ViewProducts.js:159-176 | out of stock exactly at quantity 0, low stock exactly for a non-zero quantity at or below the threshold, in stock otherwise, each with its text |
| Catalog.StockOutIgnoresThreshold | src/components/ViewProducts.js:160-164 | an empty shelf is out of stock whatever its threshold |
| Catalog.BadgeClassOf | src/components/ViewProducts.js:271 | the badge is out of stock at 0, low below 10 and in stock from 10, whatever the product's threshold |
| Catalog.BadgeUnit | src/components/ViewProducts.js:275-278 | the badge unit is `kg`, `L`, `units` for `pcs` or no unit, and the raw unit otherwise |
| Catalog.BadgeText | src/components/ViewProducts.js:272-279 | the badge reads `Out of Stock` at 0 and `<quantity> <unit> in stock` otherwise |
| Catalog.BadgeTextReadsBack | src/components/ViewProducts.js:275 | a badge with stock on it begins with the quantity, which `parseInt` reads back exactly |
| Catalog.BadgeOutOfStockIffEmpty | src/components/ViewProducts.js:272-279 | the badge reads `Out of Stock` exactly when the quantity is 0 |
| Catalog.BadgeUnitVersusUnitDisplay | src/components/ViewProducts.js:276-278 | the badge and `formatQuantity`'s unit text agree exactly for `kg`, `litre`, `box` and `pack` |
| Catalog.BadgeAgreesWithStatusAtThresholdNine | src/components/ViewProducts.js:271 | badge and stock status always agree on out of stock, and on every class when the threshold is 9 |
| Catalog.LowStatusInStockBadge | src/components/ViewProducts.js:271 | the status says low stock while the badge says in stock exactly when 10 <= quantity <= threshold |
| Catalog.FindLabel | src/components/ViewProducts.js:241 | `find` returns the label of the first entry with the slug, or nothing when no entry has it |
| Catalog.CategoryTitle | src/components/ViewProducts.js:241 | a listed slug is titled with a listed label, any other key `Uncategorized` |
| Catalog.CategoryTitleOfListedSlug | src/components/ViewProducts.js:7-48 | each built-in slug is titled with its own label |
| CatalogSort.Sign | src/components/ViewProducts.js:90-93 | the sign of a difference is -1, 0 or 1 |
| CatalogSort.CompareAntisymmetric | src/components/ViewProducts.js:86-96 | the comparator is antisymmetric on every sort field |
| CatalogSort.CompareTransitive | src/components/ViewProducts.js:86-96 | the comparator is transitive on every sort field |
| CatalogSort.BeforeTotal | src/components/ViewProducts.js:86-96 | any two products are ordered one way or the other, in either sort order |
| CatalogSort.BeforeTransitive | src/components/ViewProducts.js:86-96 | the induced order is transitive in either sort order |
| CatalogSort.SortIsPermutation | src/components/ViewProducts.js:86-96 | the sorted list is a permutation of the filtered list |
| CatalogSort.SortIsSorted | src/components/ViewProducts.js:86-96 | the sorted list is ordered by the comparator |
| CatalogSort.SortAscNonDecreasing | src/components/ViewProducts.js:86-96 | ascending, the chosen key never decreases along the list |
| CatalogSort.SortIsStable | src/components/ViewProducts.js:86-96 | products with equal keys keep their input order |
| CatalogSort.SortedUnique | src/components/ViewProducts.js:86-96 | with distinct keys there is exactly one sorted arrangement |
| CatalogSort.ReverseSorted | src/components/ViewProducts.js:95 | reversing an ascending list gives a descending one |
| CatalogSort.DescIsReverseOfAsc | src/components/ViewProducts.js:95 | with distinct keys, descending order is exactly the reverse of ascending order |
| CatalogGroup.GroupsFor | src/components/ViewProducts.js:98-105 | one group per key, holding exactly the products filed under it |
| CatalogGroup.GroupByCategory | src/components/ViewProducts.js:98-105 | the in-place `reduce` loop yields exactly the grouping by `category \|\| 'uncategorized'`, sections in the order their keys first occur |
| CatalogGroup.KeysCover | src/components/ViewProducts.js:98-105 | a key is a group exactly when some product carries it |
| CatalogGroup.KeysDistinct | src/components/ViewProducts.js:98-105 | no category has two groups |
| CatalogGroup.KeysGrowAtTheEnd | src/components/ViewProducts.js:98-105 | the groups of a prefix come first, in the same order |
| CatalogGroup.ExactlyOneGroup | src/components/ViewProducts.js:98-105 | every product is in one group, and only in the group of its own key |
| CatalogGroup.GroupSizesSum | src/components/ViewProducts.js:98-105 | the group sizes add up to the number of products grouped |
| ViewProducts.SortToggle | src/components/ViewProducts.js:107-114 | after `handleSort(field)` (which no control calls) the list is sorted by that field, flipping the order on the current field and starting ascending on another |
| ViewProducts.SortToggleTwiceRestores | src/components/ViewProducts.js:107-114 | two calls on the current field restore the sort state |
| ViewProducts.RemoveByIdSpec | src/components/ViewProducts.js:125 | a delete drops every product with the id and keeps each other one with its multiplicity |
| ViewProducts.RemoveAbsentId | src/components/ViewProducts.js:125 | deleting an id no product carries changes nothing |
| ViewProducts.PipelineSpec | src/components/ViewProducts.js:78-105 | a product appears in the grid exactly when it passes the filter, in exactly one section, and the sections hold as many cards as the filter kept |
| ViewProducts.GridSectionsNonEmpty | src/components/ViewProducts.js:229-238 | when the grid is shown it has a section and none is empty |
| ViewProducts.ProductsView.constructor | src/components/ViewProducts.js:51-58 | the page starts loading, with no products, no filters, and name ascending |
| ViewProducts.ProductsView.LoadProducts | src/components/ViewProducts.js:60-72 | a successful load replaces the list and clears the error, a failed one keeps the list and sets the message; loading ends either way |
| ViewProducts.ProductsView.SetSearchTerm | src/components/ViewProducts.js:207 | typing in the search box sets the search term and nothing else |
| ViewProducts.ProductsView.SetSelectedCategory | src/components/ViewProducts.js:216 | choosing in the category select sets the selected category and nothing else |
| ViewProducts.ProductsView.HandleSort | src/components/ViewProducts.js:107-114 | the sort state becomes `SortToggle` of the old one, nothing else changes; no control calls it |
| ViewProducts.ProductsView.HandleDelete | src/components/ViewProducts.js:116-132 | unconfirmed: nothing changes; confirmed: the product is removed on success or the error set on failure, and the pending delete is cleared so no delete button stays disabled |
| ViewProducts.ProductsView.DeleteDisabled | src/components/ViewProducts.js:291 | a delete button is disabled only while its own product's deletion is pending, and then no other product's button is |
| ViewProducts.ProductsView.CurrentScreen | src/components/ViewProducts.js:178-236 | the spinner shows exactly while loading, the error exactly when loaded with an error, the empty state exactly when loaded without error and the filter keeps nothing, and otherwise the grid of the filter-sort-group pipeline |
| ViewProducts.ProductsView.GroupedProducts | src/components/ViewProducts.js:78-105 | the sections are the filter-sort-group pipeline of the current state |
| ProductForm.Cleared | src/components/AddProduct.js:92-97 | clearing an error sets only that entry to undefined, keeps every key, and leaves a field without a message untouched |
| ProductForm.ClearedAllKeepsKeys | src/components/AddProduct.js:92-97 | no sequence of edits removes a key from the error object |
| ProductForm.FailureText | src/components/AddProduct.js:126 | the page error is the server message when there is a non-empty one, the fallback otherwise |
| EditProduct.Draft.With | src/components/EditProduct.js:104-107 | the spread update sets the named field and no other |
| EditProduct.Coerce | src/components/EditProduct.js:91-101 | text fields and empty input are stored verbatim; numeric input is stored exactly when `parseFloat` (price) or `parseInt` (others) gives a number |
| EditProduct.CoercePreservesNumber | src/components/EditProduct.js:95-97 | the stored text parses to the same number as the typed text, and a discount is cut to whole percent |
| EditProduct.CoerceIdempotent | src/components/EditProduct.js:91-101 | typing the stored text again stores the same text |
| EditProduct.CoerceTruncatesFraction | src/components/EditProduct.js:95-97 | `<n>.<digits>` typed into a whole-number field is stored as `<n>` (`'3.7'` becomes `'3'`) |
| EditProduct.CoerceKeepsPrintedPrice | src/components/EditProduct.js:95-97 | a price typed as `toString` prints it is stored unchanged |
| EditProduct.CoerceReadable | src/components/EditProduct.js:91-101 | whatever the change handler stores, the submit handler parses to a number or finds empty |
| EditProduct.ChangeKeepsReadable | src/components/EditProduct.js:86-107 | an accepted change keeps every numeric field parseable |
| EditProduct.LoadDraftReadsBack | src/components/EditProduct.js:42-50 | the loaded text parses back to the stored numbers, and a missing optional number becomes empty and only then |
| EditProduct.LoadDraftReadable | src/components/EditProduct.js:42-50 | the loaded draft keeps every numeric field parseable |
| EditProduct.ErrorsOf | src/components/EditProduct.js:59-84 | the error object has a key exactly for each failed rule, each with its message |
| EditProduct.EmptyOptionalFieldsPass | src/components/EditProduct.js:69-80 | an empty discount, minimum, reorder quantity or expiry date is never flagged |
| EditProduct.ValidPayloadInRange | src/components/EditProduct.js:129-136 | a valid draft is sent with a positive price, a non-negative whole quantity, and optionals that are null exactly when empty and otherwise in range |
| EditProduct.PayloadCopiesText | src/components/EditProduct.js:129-136 | the body copies every text field of the draft |
| EditProduct.EditForm.constructor | src/components/EditProduct.js:10-25 | the form starts loading with an empty draft and no errors |
| EditProduct.EditForm.FetchData | src/components/EditProduct.js:31-57 | a successful load sets the draft and categories, a failure keeps them and sets the message; loading ends either way |
| EditProduct.EditForm.ValidateForm | src/components/EditProduct.js:59-84 | stores the error object and returns true exactly when it is empty |
| EditProduct.EditForm.HandleChange | src/components/EditProduct.js:86-116 | an unparseable keystroke changes nothing; otherwise only the named field changes and only its error is cleared |
| EditProduct.EditForm.HandleSubmit | src/components/EditProduct.js:118-145 | an invalid draft sends nothing and does not navigate; a valid one is sent as `MakePayload`, then navigates to `/products` or shows the failure text; loading ends |
| EditProduct.EditAndSubmit | src/components/EditProduct.js:118-136 | after any keystrokes, whatever is sent has a positive price and a non-negative quantity |
| AddProduct.AddDraft.Changed | src/components/AddProduct.js:86-89 | the spread update sets the named field to the processed value and no other |
| AddProduct.Processed | src/components/AddProduct.js:82-84 | empty input is stored as `''`, other input as the number `Number` gives, or `NaN` |
| AddProduct.InitialDraftSettled | src/components/AddProduct.js:12-24 | the initial numeric fields are numbers or the text `'0.00'` |
| AddProduct.ChangedSettled | src/components/AddProduct.js:77-89 | a numeric field only ever holds a number, `NaN`, `''` or `'0.00'` |
| AddProduct.ValidationErrors | src/components/AddProduct.js:42-75 | the error object has a key exactly for each failed rule, each with its message |
| AddProduct.ZeroAndEmptyPass | src/components/AddProduct.js:53-70 | a zero price, a zero reorder quantity and an empty quantity all pass |
| AddProduct.NaNNeverFlagged | src/components/AddProduct.js:53-71 | a numeric field holding `NaN` is never flagged |
| AddProduct.PayloadUnitAllowed | src/components/AddProduct.js:120 | the unit sent is always allowed: the draft's if allowed, `pcs` otherwise |
| AddProduct.PayloadCopiesText | src/components/AddProduct.js:111-118 | the body copies the text fields, and sends an empty expiry date as null and only then |
| AddProduct.IntDefault | src/components/AddProduct.js:113-117 | a whole-number field that truncates to 0, holds `NaN` or is empty is sent as its default, others are truncated; a non-zero default is never sent as 0 |
| AddProduct.RealDefault | src/components/AddProduct.js:114-115 | a decimal field sends its number, or 0 for `NaN` and empty |
| AddProduct.InitialAmountReadsZero | src/components/AddProduct.js:19-20 | the initial `'0.00'` reads as 0 to `parseInt`, `parseFloat` and `Number` |
| AddProduct.ValidPayloadInRange | src/components/AddProduct.js:111-121 | a valid draft is sent with non-negative quantity and price, discount in [0, 100], and positive thresholds |
| AddProduct.DisabledAfterEdits | src/components/AddProduct.js:350 | once the error object has a key, no sequence of edits enables the submit button |
| AddProduct.AddForm.constructor | src/components/AddProduct.js:8-26 | the form starts idle, with the initial draft and no errors |
| AddProduct.AddForm.FetchCategories | src/components/AddProduct.js:30-38 | a successful load sets the categories, a failure sets the fixed message |
| AddProduct.AddForm.ValidateForm | src/components/AddProduct.js:42-75 | stores the error object and returns true exactly when it is empty |
| AddProduct.AddForm.HandleChange | src/components/AddProduct.js:77-98 | only the named field changes, to the processed value, and only its error is cleared |
| AddProduct.AddForm.HandleSubmit | src/components/AddProduct.js:100-131 | the error is cleared first; an invalid draft sends nothing and does not navigate; a valid one is posted as `MakePayload`, then navigates to `/` or shows the failure text; loading ends |
| AddProduct.AddAndSubmit | src/components/AddProduct.js:100-121 | after any keystrokes, whatever is sent has in-range numbers and an allowed unit |
| AddProduct.EditAfterFailedValidation | src/components/AddProduct.js:92-96 | after a failed validation, the button stays disabled whatever is typed |
| App.LowStockCount | src/App.js:21 | the count never exceeds the number of products |
| App.LowStockCountAppend | src/App.js:21 | the count adds up product by product, and an out-of-stock product adds nothing |
| App.CountedAreLowStock | src/App.js:21 | a product is counted exactly when it has stock left at or below its threshold |
| App.CounterVersusStatus | src/App.js:21 | the counter and the stock status disagree exactly on negative quantities within the threshold |
| App.LowStockCountMatchesStatus | src/App.js:21 | with no negative quantities, the count is the number of products `getStockStatus` classifies as low stock |
| App.NotificationIffLowStock | src/App.js:59 | the Products link has a badge exactly when some product is low on stock, and it shows the count |
| App.Navbar.constructor | src/App.js:13 | the count starts at 0 |
| App.Navbar.FetchLowStockCount | src/App.js:16-28 | a successful fetch sets the count from the list and the link's badge to that count's notification, a failed one keeps it |
| App.Navbar.ProductsNotification | src/App.js:59 | the Products link carries a notification exactly when the count is positive, and it is the count |
| App.Shell.constructor | src/App.js:86 | the menu starts closed |
| App.Shell.ToggleMenu | src/App.js:88-90 | toggling negates the menu state |
| App.Shell.CloseMenu | src/App.js:92-94 | closing leaves the menu closed |
| App.ToggleTwice | src/App.js:88-90 | two toggles restore the menu state |
| App.CloseClosed | src/App.js:92-94 | closing a closed menu changes nothing |

## Left out

- Network I/O (`API.get`, `API.post`, `API.delete`, `axios.get`/`put`, `fetch`) is left out; each call's outcome is a parameter of the method that handles it.
- The `Promise.all` join of the edit form's two loads is left out: its combined result is one parameter, either both bodies or one failure.
- The discounted price and `toFixed(2)` (src/components/ViewProducts.js:257-267) are left out: they are floating-point display arithmetic.
- JsNumber.StringToNumber: exponents, `Infinity`, hexadecimal, binary and octal prefixes, and more than 15 significant digits are not modelled. Such text reads as `NaN` or exactly, where JavaScript would read it otherwise.
- JsNumber.Truncate: `parseInt` of a number whose `String` form uses an exponent (magnitude of 1e21 or more, or below 1e-6) is modelled as plain truncation.
- JsNumber.ParseDecimal: values are exact where JavaScript rounds to the nearest double, which reads decimal text back unchanged only up to 15 significant digits and integers only up to 2^53; so `EditProduct.Coerce` keeps a price typed as `0.30000000000000001` unchanged where the page stores `"0.3"`, and a quantity typed as `9007199254740993` unchanged where the page stores `"9007199254740992"`; the add form's payload (src/components/AddProduct.js:113-117) has the same gap.
- JsNumber.ParseInt: `parseInt` without a radix reads a `0x` prefix as hexadecimal; the model reads decimal only, so `0x1A` reads 0 instead of 26 (a number input does not produce such text).
- JsNumber.ParseDecimal: an exponent is not read, so `parseFloat("1e5")` reads 1 where JavaScript reads 100000; through it `EditProduct.Coerce` stores `"1"` for a price typed as `1e5`, where the page stores `"100000"`.
- JsNumber.DecimalToString: JavaScript prints magnitudes below 1e-6 or from 1e21 on in exponent form (`1e-7`); the model prints plain digits, so `EditProduct.Coerce` stores `"0.0000001"` for a price the page stores as `"1e-7"`.
- CatalogGroup.Grouped: sections come in first-occurrence order, but `Object.entries` lists integer-like category keys (`"2"` before `"10"`) first, in ascending order; and a category named `constructor`, `toString` or `__proto__` finds an inherited value in the accumulator, so the page's `push` throws, which the model does not capture.
- JsText.ToLower: only ASCII letters are folded; full Unicode case mapping is not modelled.
- JsText.LocaleCompare: locale collation is not modelled; code-unit order stands in for it, with the same total-preorder properties.
- EditProduct.Read: `new Date(text)` is the function parameter `parseDate`, and `new Date()` is the parameter `now`; date parsing itself is not modelled.
- The server's records are typed: a `null` text field, a non-numeric quantity or threshold, and numeric category ids are not modelled; category ids are text. The app itself can store a `null` threshold: the edit form sends `min_stock_level: null` for an empty field (src/components/EditProduct.js:134), whereas `Catalog.Product.minStockLevel` is an integer. `getStockStatus` then compares `quantity <= null` as `quantity <= 0`, so it classifies a stocked product with a null threshold as in stock, and the navigation bar never counts it.
- CatalogSort.Compare: a `sortBy` value other than name, price or quantity (comparison 0) cannot occur in the model, because the sort field is an enumeration.
- EditProduct.Draft: fields the server returns beyond the form's own pass through the object spread unmodelled.
- `console.error`, JSX, CSS classes, icons and the route table are left out; a navigation is its target path.
- The category description lookup under the add form's select box (src/components/AddProduct.js:199-203) is display only and is left out.
- src/components/ProductList.js is not part of this model: no route uses it. src/api.js only configures the HTTP client.
- Concurrency is left out: a response that arrives after the user has left the page is not modelled.

=== FILE: add_product.dfy ===
/**
 * The add form (src/components/AddProduct.js): text inputs hold text, numeric inputs hold what
 * `Number(value)` makes of the typed text (or the empty text); the validator only rejects negative
 * numbers, and the submit handler turns every number into one with falsy `||` defaults.
 */
module AddProduct {
  import opened Wrappers
  import JsText
  import opened JsNumber
  import opened ProductForm

  /** The `product` state. The numeric inputs hold form values, the others hold text. */
  datatype AddDraft = AddDraft(
    name: string,
    description: string,
    categoryId: string,
    brand: string,
    quantity: JsValue,
    unit: string,
    price: JsValue,
    discount: JsValue,
    expiryDate: string,
    minStockLevel: JsValue,
    reorderQuantity: JsValue)
  {
    function Text(f: Field): string
      requires !IsNumeric(f)
    {
      match f
      case Name => name
      case Description => description
      case CategoryId => categoryId
      case Brand => brand
      case Unit => unit
      case ExpiryDate => expiryDate
    }

    function Number(f: Field): JsValue
      requires IsNumeric(f)
    {
      match f
      case Quantity => quantity
      case Price => price
      case Discount => discount
      case MinStockLevel => minStockLevel
      case ReorderQuantity => reorderQuantity
    }

    /**
     * `{...prev, [f]: processedValue}` for `value` typed into `f`: a numeric input stores
     * `Processed(value)`, any other input stores the text, and no other field changes.
     */
    function Changed(f: Field, value: string): (d: AddDraft)
      ensures IsNumeric(f) ==> d.Number(f) == Processed(value)
      ensures !IsNumeric(f) ==> d.Text(f) == value
      ensures forall g :: g != f && IsNumeric(g) ==> d.Number(g) == Number(g)
      ensures forall g :: g != f && !IsNumeric(g) ==> d.Text(g) == Text(g)
    {
      match f
      case Name => this.(name := value)
      case Description => this.(description := value)
      case CategoryId => this.(categoryId := value)
      case Brand => this.(brand := value)
      case Quantity => this.(quantity := Processed(value))
      case Unit => this.(unit := value)
      case Price => this.(price := Processed(value))
      case Discount => this.(discount := Processed(value))
      case ExpiryDate => this.(expiryDate := value)
      case MinStockLevel => this.(minStockLevel := Processed(value))
      case ReorderQuantity => this.(reorderQuantity := Processed(value))
    }
  }

  /** The text the price and discount inputs start with. */
  const InitialAmount := "0.00"

  /** The state the form starts from. */
  const InitialDraft :=
    AddDraft("", "", "", "", Num(0.0), "pcs", Str(InitialAmount), Str(InitialAmount), "", Num(10.0), Num(20.0))

  /** `value === '' ? '' : Number(value)` for a numeric input. */
  function Processed(value: string): (v: JsValue)
    ensures value == "" ==> v == Str("")
    ensures value != "" ==> (v.Num? <==> StringToNumber(value).Some?)
    ensures value != "" && v.Num? ==> v.x == StringToNumber(value).value
    ensures value != "" && !v.Num? ==> v == NaN
  {
    if value == "" then Str("")
    else
      match StringToNumber(value)
      case Some(x) => Num(x)
      case None => NaN
  }

  /**
   * What a numeric input can hold: a number, `NaN`, the empty text its handler stores, or the
   * text it started with.
   */
  predicate Settled(v: JsValue) {
    v.Str? ==> v.s == "" || v.s == InitialAmount
  }

  /** The draft invariant: every numeric input is settled. */
  predicate SettledDraft(d: AddDraft) {
    Settled(d.quantity) && Settled(d.price) && Settled(d.discount) && Settled(d.minStockLevel)
    && Settled(d.reorderQuantity)
  }

  lemma InitialDraftSettled()
    ensures SettledDraft(InitialDraft)
  {
  }

  /** A change the handler makes keeps the invariant. */
  lemma ChangedSettled(d: AddDraft, f: Field, value: string)
    requires SettledDraft(d)
    ensures SettledDraft(d.Changed(f, value))
  {
  }

  const PriceNotNegative := "Price cannot be negative"
  const ReorderNotNegative := "Reorder quantity cannot be negative"

  /**
   * Whether `validateForm` flags field `f` of `d`. Numbers are compared as JavaScript's `<` and
   * `>` compare them: the text is converted with `Number`, so the empty text reads as 0, and a
   * comparison with `NaN` is false.
   */
  predicate Flags(d: AddDraft, f: Field) {
    match f
    case Name => JsText.Trim(d.name) == ""
    case CategoryId => d.categoryId == ""
    case Quantity => LessThan(d.quantity, 0.0)
    case Price => LessThan(d.price, 0.0)
    case Discount => LessThan(d.discount, 0.0) || GreaterThan(d.discount, 100.0)
    case MinStockLevel => LessThan(d.minStockLevel, 0.0)
    case ReorderQuantity => LessThan(d.reorderQuantity, 0.0)
    case _ => false
  }

  function Message(f: Field): string {
    match f
    case Name => NameRequired
    case CategoryId => CategoryRequired
    case Quantity => QuantityNotNegative
    case Price => PriceNotNegative
    case Discount => DiscountRange
    case MinStockLevel => MinStockNotNegative
    case ReorderQuantity => ReorderNotNegative
    case _ => ""
  }

  const ValidatedFields: set<Field> :=
    {Name, CategoryId, Quantity, Price, Discount, MinStockLevel, ReorderQuantity}

  /** The error object `validateForm` builds: a message for exactly the flagged fields. */
  function ValidationErrors(d: AddDraft): (errors: Errors)
    ensures forall f :: f in errors <==> Flags(d, f)
    ensures forall f :: f in errors ==> errors[f] == Some(Message(f)) && Message(f) != ""
  {
    map f | f in ValidatedFields && Flags(d, f) :: Some(Message(f))
  }

  /**
   * Unlike the edit form, the add form accepts a zero price, a zero reorder quantity and an
   * empty quantity.
   */
  lemma ZeroAndEmptyPass(d: AddDraft)
    ensures d.price == Num(0.0) ==> Price !in ValidationErrors(d)
    ensures d.reorderQuantity == Num(0.0) ==> ReorderQuantity !in ValidationErrors(d)
    ensures d.quantity == Str("") ==> Quantity !in ValidationErrors(d)
  {
    EmptyTextReadsZero();
  }

  lemma EmptyTextReadsZero()
    ensures ToNumber(Str("")) == Some(0.0)
  {
  }

  /** A number the user typed as garbage (`NaN`) is never flagged. */
  lemma NaNNeverFlagged(d: AddDraft, f: Field)
    requires IsNumeric(f) && d.Number(f) == NaN
    ensures f !in ValidationErrors(d)
  {
  }

  /** The `POST` body: the draft with its numbers normalised, a missing date as `null`. */
  datatype Payload = Payload(
    name: string,
    description: string,
    categoryId: string,
    brand: string,
    quantity: int,
    unit: string,
    price: real,
    discount: real,
    expiryDate: Option<string>,
    minStockLevel: int,
    reorderQuantity: int)

  const AllowedUnits: set<string> := {"pcs", "kg", "litre", "box", "pack"}

  function AllowedUnit(unit: string): string {
    if unit in AllowedUnits then unit else "pcs"
  }

  function MakePayload(d: AddDraft): Payload {
    Payload(
      d.name, d.description, d.categoryId, d.brand,
      IntOr(ParseIntValue(d.quantity), 0),
      AllowedUnit(d.unit),
      RealOr(ParseFloatValue(d.price), 0.0),
      RealOr(ParseFloatValue(d.discount), 0.0),
      if d.expiryDate != "" then Some(d.expiryDate) else None,
      IntOr(ParseIntValue(d.minStockLevel), 10),
      IntOr(ParseIntValue(d.reorderQuantity), 20))
  }

  /** The unit sent is always an allowed one: the draft's if it is allowed, `pcs` otherwise. */
  lemma PayloadUnitAllowed(d: AddDraft)
    ensures MakePayload(d).unit in AllowedUnits
    ensures d.unit in AllowedUnits ==> MakePayload(d).unit == d.unit
    ensures d.unit !in AllowedUnits ==> MakePayload(d).unit == "pcs"
  {
  }

  /** The payload copies the draft's text fields. */
  lemma PayloadCopiesText(d: AddDraft)
    ensures var p := MakePayload(d);
            && p.name == d.name && p.description == d.description && p.categoryId == d.categoryId
            && p.brand == d.brand
            && (p.expiryDate.None? <==> d.expiryDate == "")
            && (p.expiryDate.Some? ==> p.expiryDate.value == d.expiryDate)
  {
  }

  /**
   * The falsy `||` defaults: a whole-number field whose number truncates to 0, or that holds
   * `NaN` or the empty text, is sent as its default (0, 10, 20); the thresholds are therefore
   * never sent as 0. Any other number is sent truncated toward zero.
   */
  lemma IntDefault(v: JsValue, fallback: int)
    ensures fallback != 0 ==> IntOr(ParseIntValue(v), fallback) != 0
    ensures v == NaN || v == Str("") ==> IntOr(ParseIntValue(v), fallback) == fallback
    ensures v.Num? && -1.0 < v.x < 1.0 ==> IntOr(ParseIntValue(v), fallback) == fallback
    ensures v.Num? && (v.x >= 1.0 || v.x <= -1.0) ==> IntOr(ParseIntValue(v), fallback) == Truncate(v.x)
  {
  }

  /** A decimal field holding a number sends it; `NaN` or the empty text is sent as 0. */
  lemma RealDefault(v: JsValue)
    ensures v.Num? ==> RealOr(ParseFloatValue(v), 0.0) == v.x
    ensures v == NaN || v == Str("") ==> RealOr(ParseFloatValue(v), 0.0) == 0.0
  {
  }

  /** `'0.00'`, the text the price and discount start with, reads as 0 to every conversion. */
  lemma InitialAmountReadsZero()
    ensures ParseInt(InitialAmount) == Some(0)
    ensures ParseFloat(InitialAmount) == Some(0.0)
    ensures StringToNumber(InitialAmount) == Some(0.0)
  {
    InitialAmountParseInt();
    InitialAmountParseFloat();
    InitialAmountNumber();
  }

  lemma InitialAmountParseInt()
    ensures ParseInt(InitialAmount) == Some(0)
  {
  }

  lemma InitialAmountParseFloat()
    ensures ParseFloat(InitialAmount) == Some(0.0)
  {
  }

  lemma InitialAmountNumber()
    ensures StringToNumber(InitialAmount) == Some(0.0)
  {
  }

  /**
   * For a settled value, `parseFloat` and `parseInt` agree with the number `<` compares, whenever
   * they give a number at all.
   */
  lemma SettledReads(v: JsValue)
    requires Settled(v)
    ensures ParseFloatValue(v).Some? ==> ToNumber(v) == ParseFloatValue(v)
    ensures ParseIntValue(v).Some? ==>
              ToNumber(v).Some? && ParseIntValue(v).value == Truncate(ToNumber(v).value)
  {
    if v == Str(InitialAmount) {
      InitialAmountReadsZero();
    }
  }

  lemma IntSentNonNegative(v: JsValue, fallback: int)
    requires Settled(v) && !LessThan(v, 0.0) && fallback >= 0
    ensures IntOr(ParseIntValue(v), fallback) >= 0
  {
    SettledReads(v);
  }

  lemma RealSentNonNegative(v: JsValue)
    requires Settled(v) && !LessThan(v, 0.0)
    ensures RealOr(ParseFloatValue(v), 0.0) >= 0.0
  {
    SettledReads(v);
  }

  lemma RealSentInRange(v: JsValue, bound: real)
    requires Settled(v) && !LessThan(v, 0.0) && !GreaterThan(v, bound) && bound >= 0.0
    ensures 0.0 <= RealOr(ParseFloatValue(v), 0.0) <= bound
  {
    SettledReads(v);
  }

  /**
   * A settled draft that passes validation is sent with a non-negative whole quantity, a
   * non-negative price, a discount within [0, 100] and positive thresholds.
   */
  lemma ValidPayloadInRange(d: AddDraft)
    requires SettledDraft(d) && ValidationErrors(d) == map[]
    ensures var p := MakePayload(d);
            && p.quantity >= 0 && p.price >= 0.0 && 0.0 <= p.discount <= 100.0
            && p.minStockLevel > 0 && p.reorderQuantity > 0
  {
    var errors := ValidationErrors(d);
    assert Quantity !in errors && Price !in errors && Discount !in errors;
    assert MinStockLevel !in errors && ReorderQuantity !in errors;
    IntSentNonNegative(d.quantity, 0);
    RealSentNonNegative(d.price);
    RealSentInRange(d.discount, 100.0);
    IntSentNonNegative(d.minStockLevel, 10);
    IntDefault(d.minStockLevel, 10);
    IntSentNonNegative(d.reorderQuantity, 20);
    IntDefault(d.reorderQuantity, 20);
  }

  /** `disabled={loading || Object.keys(validationErrors).length > 0}`. */
  predicate SubmitDisabled(loading: bool, errors: Errors) {
    loading || |errors| > 0
  }

  /**
   * Clearing errors keeps their keys, so once a validation has failed no sequence of edits
   * enables the submit button again.
   */
  lemma DisabledAfterEdits(loading: bool, errors: Errors, edits: seq<Field>)
    requires errors != map[]
    ensures SubmitDisabled(loading, ClearedAll(errors, edits))
  {
    ClearedAllKeepsKeys(errors, edits);
    assert errors.Keys != {} by {
      var f :| f in errors;
    }
  }

  const ProductsPath := "/products"
  const CategoriesFailed := "Failed to load categories. Please try again."
  const AddFailed := "Failed to add product. Please try again."

  /** A request the form sends: the path (below the API's base URL) and the body of a `POST`. */
  datatype PostRequest = PostRequest(path: string, body: Payload)

  /** The form's state hooks. */
  class AddForm {
    var loading: bool
    var error: Option<string>
    var categories: seq<Category>
    var product: AddDraft
    var validationErrors: Errors

    predicate Valid()
      reads this
    {
      SettledDraft(product)
    }

    constructor ()
      ensures Valid()
      ensures !loading && error == None && categories == []
      ensures product == InitialDraft && validationErrors == map[]
    {
      loading := false;
      error := None;
      categories := [];
      product := InitialDraft;
      validationErrors := map[];
    }

    /** The `fetchCategories` effect once `GET /categories` has settled (`None`: it failed). */
    method FetchCategories(response: Option<seq<Category>>)
      modifies this
      ensures response.Some? ==> categories == response.value && error == old(error)
      ensures response.None? ==> categories == old(categories) && error == Some(CategoriesFailed)
      ensures loading == old(loading) && product == old(product) && validationErrors == old(validationErrors)
    {
      if response.Some? {
        categories := response.value;
      } else {
        error := Some(CategoriesFailed);
      }
    }

    predicate IsSubmitDisabled()
      reads this
    {
      SubmitDisabled(loading, validationErrors)
    }

    /** `validateForm`: stores the error object and reports whether it is empty. */
    method ValidateForm() returns (ok: bool)
      modifies this
      ensures validationErrors == ValidationErrors(product)
      ensures ok <==> validationErrors == map[]
      ensures product == old(product) && loading == old(loading) && error == old(error)
      ensures categories == old(categories)
    {
      var errors := ValidationErrors(product);
      validationErrors := errors;
      ok := |errors| == 0;
      NoKeysIffEmpty(errors);
    }

    /** `handleChange` for input `f` receiving `value`. */
    method HandleChange(f: Field, value: string)
      requires Valid()
      modifies this
      ensures Valid()
      ensures product == old(product).Changed(f, value)
      ensures validationErrors == Cleared(old(validationErrors), f)
      ensures loading == old(loading) && error == old(error) && categories == old(categories)
    {
      ChangedSettled(product, f, value);
      product := product.Changed(f, value);
      if HasMessage(validationErrors, f) {
        validationErrors := validationErrors[f := None];
      }
    }

    /**
     * `handleSubmit`: clears the page error, validates, and only a valid draft is sent. `outcome`
     * is how the `POST` ended; the results are the request sent, if any, and the path navigated
     * to, if any.
     */
    method HandleSubmit(outcome: Outcome) returns (request: Option<PostRequest>, navigateTo: Option<string>)
      modifies this
      ensures validationErrors == ValidationErrors(old(product))
      ensures product == old(product) && categories == old(categories)
      ensures validationErrors != map[] ==>
                request == None && navigateTo == None && error == None && loading == old(loading)
      ensures validationErrors == map[] ==>
                request == Some(PostRequest(ProductsPath, MakePayload(product))) && !loading
      ensures validationErrors == map[] && outcome.Succeeded? ==> navigateTo == Some("/") && error == None
      ensures validationErrors == map[] && outcome.Failed? ==>
                navigateTo == None && error == Some(FailureText(outcome.message, AddFailed))
    {
      request := None;
      navigateTo := None;
      error := None;
      var ok := ValidateForm();
      if ok {
        loading := true;
        request := Some(PostRequest(ProductsPath, MakePayload(product)));
        if outcome.Succeeded? {
          navigateTo := Some("/");
        } else {
          error := Some(FailureText(outcome.message, AddFailed));
        }
        loading := false;
      }
    }
  }

  /** Whatever the user types, a request the form sends carries numbers in range. */
  method AddAndSubmit(form: AddForm, edits: seq<(Field, string)>, outcome: Outcome)
    returns (request: Option<PostRequest>)
    requires form.Valid()
    modifies form
    ensures request.Some? ==>
              var p := request.value.body;
              p.quantity >= 0 && p.price >= 0.0 && 0.0 <= p.discount <= 100.0
              && p.minStockLevel > 0 && p.reorderQuantity > 0 && p.unit in AllowedUnits
  {
    var i := 0;
    while i < |edits|
      invariant 0 <= i <= |edits|
      invariant form.Valid()
    {
      form.HandleChange(edits[i].0, edits[i].1);
      i := i + 1;
    }
    var d := form.product;
    var navigateTo;
    request, navigateTo := form.HandleSubmit(outcome);
    if request.Some? {
      ValidPayloadInRange(d);
      PayloadUnitAllowed(d);
    }
  }

  /** Once a validation has failed, editing never enables the submit button again. */
  method EditAfterFailedValidation(form: AddForm, edits: seq<(Field, string)>)
    requires form.Valid() && form.validationErrors != map[]
    modifies form
    ensures form.IsSubmitDisabled()
  {
    var i := 0;
    while i < |edits|
      invariant 0 <= i <= |edits|
      invariant form.Valid() && form.validationErrors != map[]
    {
      var before := form.validationErrors;
      form.HandleChange(edits[i].0, edits[i].1);
      assert form.validationErrors.Keys == before.Keys;
      i := i + 1;
    }
    DisabledAfterEdits(form.loading, form.validationErrors, []);
  }
}

=== FILE: app.dfy ===
/**
 * The application shell (src/App.js): the navigation bar's low-stock counter and its badge, and
 * the mobile menu's open/closed state.
 */
module App {
  import opened Wrappers
  import opened Seqs
  import opened Catalog

  /** The counter's test: some stock left, but no more than the product's own threshold. */
  predicate IsLowStock(p: Product) {
    p.quantity <= p.minStockLevel && p.quantity > 0
  }

  /** `products.filter(p => p.quantity <= p.min_stock_level && p.quantity > 0).length`. */
  function LowStockCount(products: seq<Product>): (n: nat)
    ensures n <= |products|
  {
    |Filter(products, IsLowStock)|
  }

  /** The count adds up product by product, so an out-of-stock product never adds to it. */
  lemma LowStockCountAppend(products: seq<Product>, p: Product)
    ensures LowStockCount(products + [p]) == LowStockCount(products) + (if IsLowStock(p) then 1 else 0)
    ensures p.quantity == 0 ==> LowStockCount(products + [p]) == LowStockCount(products)
  {
    FilterAppend(products, [p], IsLowStock);
    assert Filter([p], IsLowStock) == (if IsLowStock(p) then [p] else []) + Filter([], IsLowStock);
  }

  /** Every product counted has stock left and is at or below its threshold. */
  lemma CountedAreLowStock(products: seq<Product>, p: Product)
    ensures p in Filter(products, IsLowStock) <==> p in products && 0 < p.quantity <= p.minStockLevel
  {
    FilterMembership(products, IsLowStock, p);
  }

  /**
   * The counter and `getStockStatus` disagree on a product exactly when its quantity is negative
   * and within the threshold: `getStockStatus` classifies it as low stock, the counter does not.
   */
  lemma CounterVersusStatus(p: Product)
    ensures IsLowStock(p) != (GetStockStatus(p).cssClass == LowStock) <==>
              p.quantity < 0 && p.quantity <= p.minStockLevel
  {
  }

  /**
   * With no negative quantities, the counter counts exactly the products `getStockStatus`
   * classifies as low stock.
   */
  lemma LowStockCountMatchesStatus(products: seq<Product>)
    requires forall i :: 0 <= i < |products| ==> products[i].quantity >= 0
    ensures LowStockCount(products) == |Filter(products, (p: Product) => GetStockStatus(p).cssClass == LowStock)|
  {
    var shownLow := (p: Product) => GetStockStatus(p).cssClass == LowStock;
    forall i | 0 <= i < |products|
      ensures IsLowStock(products[i]) == shownLow(products[i])
    {
      CounterVersusStatus(products[i]);
    }
    FilterCongruent(products, IsLowStock, shownLow);
  }

  /** `data-notification={lowStockCount > 0 ? lowStockCount : null}`. */
  function Notification(count: nat): Option<nat> {
    if count > 0 then Some(count) else None
  }

  /** The Products link carries a badge exactly when some product is low on stock, showing how many. */
  lemma {:induction false} NotificationIffLowStock(products: seq<Product>)
    ensures Notification(LowStockCount(products)).Some? <==> exists p :: p in products && IsLowStock(p)
    ensures Notification(LowStockCount(products)).Some? ==>
              Notification(LowStockCount(products)).value == LowStockCount(products)
  {
    if exists p :: p in products && IsLowStock(p) {
      var p :| p in products && IsLowStock(p);
      CountedAreLowStock(products, p);
    } else if LowStockCount(products) > 0 {
      var p := Filter(products, IsLowStock)[0];
      CountedAreLowStock(products, p);
      assert false;
    }
  }

  /** The `Navbar` component's state. */
  class Navbar {
    var lowStockCount: nat

    constructor ()
      ensures lowStockCount == 0
    {
      lowStockCount := 0;
    }

    /**
     * `fetchLowStockCount` once `GET /api/products` has settled (`None`: it failed, and only a
     * log line is written).
     */
    method FetchLowStockCount(response: Option<seq<Product>>)
      modifies this
      ensures response.Some? ==> lowStockCount == LowStockCount(response.value)
      ensures response.Some? ==> ProductsNotification() == Notification(LowStockCount(response.value))
      ensures response.None? ==> lowStockCount == old(lowStockCount)
    {
      if response.Some? {
        lowStockCount := LowStockCount(response.value);
      }
    }

    /** The Products link's `data-notification`: the count when it is positive, otherwise none. */
    function ProductsNotification(): (n: Option<nat>)
      reads this
      ensures n.Some? <==> lowStockCount > 0
      ensures n.Some? ==> n.value == lowStockCount
    {
      Notification(lowStockCount)
    }
  }

  /** The `App` component's state: whether the mobile menu is open. */
  class Shell {
    var isMenuOpen: bool

    constructor ()
      ensures !isMenuOpen
    {
      isMenuOpen := false;
    }

    /** `toggleMenu`. */
    method ToggleMenu()
      modifies this
      ensures isMenuOpen == !old(isMenuOpen)
    {
      isMenuOpen := !isMenuOpen;
    }

    /** `closeMenu`, run by every navigation link. */
    method CloseMenu()
      modifies this
      ensures !isMenuOpen
    {
      isMenuOpen := false;
    }
  }

  /** Two toggles restore the menu. */
  method ToggleTwice(shell: Shell)
    modifies shell
    ensures shell.isMenuOpen == old(shell.isMenuOpen)
  {
    shell.ToggleMenu();
    shell.ToggleMenu();
  }

  /** Closing a closed menu changes nothing. */
  method CloseClosed(shell: Shell)
    requires !shell.isMenuOpen
    modifies shell
    ensures shell.isMenuOpen == old(shell.isMenuOpen)
  {
    shell.CloseMenu();
  }
}

=== FILE: catalog.dfy ===
/**
 * The catalog page's view-model (src/components/ViewProducts.js): the products as the page holds
 * them, the search/category filter, and the per-product display rules (quantity with its unit,
 * the stock status, the inline stock badge and the category heading).
 */
module Catalog {
  import opened Wrappers
  import JsText
  import JsNumber
  import Seqs

  /**
   * A product as `GET /products` returns it to the catalog. `category` is the category slug;
   * `None` stands for a missing field. Prices are exact reals; the page never does arithmetic
   * on them beyond comparing two of them.
   */
  datatype Product = Product(
    id: int,
    name: string,
    brand: Option<string>,
    description: Option<string>,
    category: Option<string>,
    price: real,
    quantity: int,
    unit: Option<string>,
    minStockLevel: int)

  /** `text?.toLowerCase().includes(term)`, false when the field is missing. */
  predicate FieldMatches(field: Option<string>, term: string) {
    field.Some? && JsText.Includes(JsText.ToLower(field.value), JsText.ToLower(term))
  }

  /** The search half of the filter: name, brand or description contains the term, ignoring case. */
  predicate MatchesSearch(p: Product, term: string) {
    FieldMatches(Some(p.name), term) || FieldMatches(p.brand, term) || FieldMatches(p.description, term)
  }

  /** The category half: no category is selected, or the product's slug is the selected one. */
  predicate MatchesCategory(p: Product, selected: string) {
    selected == "" || p.category == Some(selected)
  }

  predicate Shown(p: Product, term: string, selected: string) {
    MatchesSearch(p, term) && MatchesCategory(p, selected)
  }

  /** The filter step of the pipeline. */
  function FilterProducts(products: seq<Product>, term: string, selected: string): seq<Product> {
    Seqs.Filter(products, p => Shown(p, term, selected))
  }

  /**
   * A product survives the filter exactly when one of its texts contains the term and its
   * category is the selected one (or none is selected), and survivors keep their relative order.
   */
  lemma FilterSpec(products: seq<Product>, term: string, selected: string, p: Product)
    ensures p in FilterProducts(products, term, selected)
        <==> p in products && MatchesSearch(p, term) && MatchesCategory(p, selected)
    ensures multiset(FilterProducts(products, term, selected))[p]
         == if Shown(p, term, selected) then multiset(products)[p] else 0
  {
    Seqs.FilterMembership(products, p => Shown(p, term, selected), p);
    Seqs.FilterCount(products, p => Shown(p, term, selected), p);
  }

  /** An empty search term and no selected category show every product, in order. */
  lemma EmptyFilterKeepsAll(products: seq<Product>)
    ensures FilterProducts(products, "", "") == products
  {
    forall i | 0 <= i < |products|
      ensures Shown(products[i], "", "")
    {
      JsText.IncludesEmpty(JsText.ToLower(products[i].name));
    }
    Seqs.FilterKeepsAll(products, p => Shown(p, "", ""));
  }

  /** With no category selected, only the search term decides. */
  lemma NoCategoryFiltersBySearchOnly(products: seq<Product>, term: string)
    ensures FilterProducts(products, term, "") == Seqs.Filter(products, p => MatchesSearch(p, term))
  {
    Seqs.FilterCongruent(products, p => Shown(p, term, ""), p => MatchesSearch(p, term));
  }

  /** With an empty search term, only the category decides. */
  lemma EmptySearchFiltersByCategoryOnly(products: seq<Product>, selected: string)
    ensures FilterProducts(products, "", selected) == Seqs.Filter(products, p => MatchesCategory(p, selected))
  {
    forall i | 0 <= i < |products|
      ensures Shown(products[i], "", selected) == MatchesCategory(products[i], selected)
    {
      JsText.IncludesEmpty(JsText.ToLower(products[i].name));
    }
    Seqs.FilterCongruent(products, p => Shown(p, "", selected), p => MatchesCategory(p, selected));
  }

  /** The unit text of `formatQuantity`: four known units, `pcs` for anything else or none. */
  function UnitDisplay(unit: Option<string>): (u: string)
    ensures u in {"kg", "L", "box", "pack", "pcs"}
    ensures unit == Some("kg") ==> u == "kg"
    ensures unit == Some("litre") ==> u == "L"
    ensures unit == Some("box") ==> u == "box"
    ensures unit == Some("pack") ==> u == "pack"
    ensures unit !in {Some("kg"), Some("litre"), Some("box"), Some("pack")} ==> u == "pcs"
  {
    match unit
    case Some("kg") => "kg"
    case Some("litre") => "L"
    case Some("box") => "box"
    case Some("pack") => "pack"
    case _ => "pcs"
  }

  /** `formatQuantity(product)`: the quantity, a space, and the unit text. */
  function FormatQuantity(p: Product): string {
    JsNumber.IntToString(p.quantity) + " " + UnitDisplay(p.unit)
  }

  /** The quantity reads back from the formatted text: `parseInt` stops at the space. */
  lemma FormatQuantityReadsBack(p: Product)
    ensures JsNumber.ParseInt(FormatQuantity(p)) == Some(p.quantity)
  {
    var rest := " " + UnitDisplay(p.unit);
    JsNumber.ParseIntAfterIntToString(p.quantity, rest);
    assert FormatQuantity(p) == JsNumber.IntToString(p.quantity) + rest;
  }

  /** The three classes `getStockStatus` can give. */
  datatype StockClass = StockOut | LowStock | InStock

  datatype StockStatus = StockStatus(text: string, cssClass: StockClass)

  /** `getStockStatus(product)`. */
  function GetStockStatus(p: Product): (s: StockStatus)
    ensures s.cssClass == StockOut <==> p.quantity == 0
    ensures s.cssClass == LowStock <==> p.quantity != 0 && p.quantity <= p.minStockLevel
    ensures s.cssClass == InStock <==> p.quantity != 0 && p.quantity > p.minStockLevel
    ensures s.cssClass == StockOut ==> s.text == "Out of Stock"
    ensures s.cssClass == LowStock ==> s.text == "Low Stock (" + FormatQuantity(p) + " available)"
    ensures s.cssClass == InStock ==> s.text == FormatQuantity(p) + " in stock"
  {
    if p.quantity == 0 then StockStatus("Out of Stock", StockOut)
    else if p.quantity <= p.minStockLevel then StockStatus("Low Stock (" + FormatQuantity(p) + " available)", LowStock)
    else StockStatus(FormatQuantity(p) + " in stock", InStock)
  }

  /** An empty shelf is out of stock whatever its threshold. */
  lemma StockOutIgnoresThreshold(p: Product, threshold: int)
    ensures GetStockStatus(p.(minStockLevel := threshold)).cssClass == StockOut <==> p.quantity == 0
  {
  }

  /** The classes of the inline stock badge. */
  datatype BadgeClass = OutOfStockBadge | LowStockBadge | InStockBadge

  /** The badge's class: a fixed threshold of 10, not the product's own `min_stock_level`. */
  function BadgeClassOf(p: Product): (c: BadgeClass)
    ensures c == OutOfStockBadge <==> p.quantity == 0
    ensures c == LowStockBadge <==> p.quantity != 0 && p.quantity < 10
    ensures c == InStockBadge <==> p.quantity >= 10
  {
    if p.quantity == 0 then OutOfStockBadge
    else if p.quantity < 10 then LowStockBadge
    else InStockBadge
  }

  /** The badge's unit text: `kg`, `L`, `units` for `pcs` or a missing unit, and the raw unit otherwise. */
  function BadgeUnit(unit: Option<string>): (u: string)
    ensures unit == Some("kg") ==> u == "kg"
    ensures unit == Some("litre") ==> u == "L"
    ensures unit == Some("pcs") || unit == None || unit == Some("") ==> u == "units"
    ensures unit.Some? && unit.value !in {"kg", "litre", "pcs", ""} ==> u == unit.value
  {
    match unit
    case Some("kg") => "kg"
    case Some("litre") => "L"
    case Some("pcs") => "units"
    case Some(other) => if other == "" then "units" else other
    case None => "units"
  }

  /** The badge's text. */
  function BadgeText(p: Product): (s: string)
    ensures p.quantity == 0 ==> s == "Out of Stock"
    ensures p.quantity != 0 ==> s == JsNumber.IntToString(p.quantity) + " " + BadgeUnit(p.unit) + " in stock"
  {
    if p.quantity == 0 then "Out of Stock"
    else JsNumber.IntToString(p.quantity) + " " + BadgeUnit(p.unit) + " in stock"
  }

  /** A badge with stock on it begins with the quantity: `parseInt` reads the exact count back. */
  lemma BadgeTextReadsBack(p: Product)
    requires p.quantity != 0
    ensures JsNumber.ParseInt(BadgeText(p)) == Some(p.quantity)
  {
    var rest := " " + BadgeUnit(p.unit) + " in stock";
    assert BadgeText(p) == JsNumber.IntToString(p.quantity) + rest;
    JsNumber.ParseIntAfterIntToString(p.quantity, rest);
  }

  /** "Out of Stock" is the badge of an empty shelf and of nothing else. */
  lemma BadgeOutOfStockIffEmpty(p: Product)
    ensures BadgeText(p) == "Out of Stock" <==> p.quantity == 0
  {
    if p.quantity != 0 {
      BadgeTextReadsBack(p);
      assert JsNumber.ParseInt("Out of Stock") == None;
    }
  }

  /**
   * The badge and `formatQuantity`'s unit text name a unit the same way only for `kg`, `litre`,
   * `box` and `pack`: `pcs`, an empty and a missing unit are "units" on one and "pcs" on the
   * other, and any other non-empty unit is raw on the badge and "pcs" for `formatQuantity`.
   */
  lemma BadgeUnitVersusUnitDisplay(unit: Option<string>)
    ensures BadgeUnit(unit) == UnitDisplay(unit) <==>
              unit in {Some("kg"), Some("litre"), Some("box"), Some("pack")}
  {
  }

  /**
   * The badge and `getStockStatus` agree on "out of stock" always, and on every class exactly
   * when the product's threshold plays the role of the badge's 9 (`q < 10` is `q <= 9`).
   */
  lemma BadgeAgreesWithStatusAtThresholdNine(p: Product)
    ensures BadgeClassOf(p) == OutOfStockBadge <==> GetStockStatus(p).cssClass == StockOut
    ensures p.minStockLevel == 9 ==>
              (BadgeClassOf(p) == LowStockBadge <==> GetStockStatus(p).cssClass == LowStock)
  {
  }

  /**
   * `getStockStatus` calls a product "low" while the badge shows it "in stock" exactly when its
   * quantity is at least 10 and within its own threshold (quantity 10 at threshold 10, say).
   */
  lemma LowStatusInStockBadge(p: Product)
    ensures GetStockStatus(p).cssClass == LowStock && BadgeClassOf(p) == InStockBadge <==>
              10 <= p.quantity <= p.minStockLevel
  {
  }

  /** The built-in category list of the catalog page: slug and heading. */
  const Categories: seq<(string, string)> := [
    ("groceries-staples", "Groceries & Staples"),
    ("fruits-vegetables", "Fruits & Vegetables"),
    ("dairy-bakery", "Dairy & Bakery"),
    ("snacks-packaged", "Snacks & Packaged Food"),
    ("beverages", "Beverages"),
    ("personal-care", "Personal Care"),
    ("household", "Household Essentials"),
    ("meat-seafood", "Meat & Seafood")
  ]

  /** `list.find(c => c.value === slug)?.label`: the label of the first entry with the slug. */
  function FindLabel(list: seq<(string, string)>, slug: string): (r: Option<string>)
    ensures r.Some? ==> exists i :: 0 <= i < |list| && list[i] == (slug, r.value) &&
                                    forall j :: 0 <= j < i ==> list[j].0 != slug
    ensures r.None? ==> forall i :: 0 <= i < |list| ==> list[i].0 != slug
  {
    if list == [] then None
    else if list[0].0 == slug then Some(list[0].1)
    else
      var r := FindLabel(list[1..], slug);
      assert forall i :: 1 <= i < |list| ==> list[i] == list[1..][i - 1];
      r
  }

  /** The heading of a group: its label in the built-in list, or `Uncategorized`. */
  function CategoryTitle(key: string): (title: string)
    ensures (exists i :: 0 <= i < |Categories| && Categories[i].0 == key) ==>
              exists i :: 0 <= i < |Categories| && Categories[i] == (key, title)
    ensures (forall i :: 0 <= i < |Categories| ==> Categories[i].0 != key) ==> title == "Uncategorized"
  {
    match FindLabel(Categories, key)
    case Some(heading) => if heading == "" then "Uncategorized" else heading
    case None => "Uncategorized"
  }

  /** The slugs of the built-in list are distinct, so a slug's heading is its own label. */
  lemma CategoryTitleOfListedSlug(i: nat)
    requires i < |Categories|
    ensures CategoryTitle(Categories[i].0) == Categories[i].1
  {
    assert forall j, k :: 0 <= j < k < |Categories| ==> Categories[j].0 != Categories[k].0;
  }
}

=== FILE: catalog_group.dfy ===
/**
 * The group step of the catalog pipeline (src/components/ViewProducts.js): products are pushed
 * into per-category arrays of an object accumulator. Its entries are modelled in insertion order,
 * which is the order `Object.entries` gives for keys that are not array indices (`"2"`, `"10"`)
 * and name nothing `Object.prototype` already has (`constructor`, `toString`, `__proto__`).
 */
module CatalogGroup {
  import Seqs
  import opened Catalog

  /** `product.category || 'uncategorized'`. */
  function CategoryKey(p: Product): string {
    if p.category.None? || p.category.value == "" then "uncategorized" else p.category.value
  }

  datatype Group = Group(category: string, items: seq<Product>)

  /** The distinct category keys of `s`, in the order of their first occurrence. */
  function Keys(s: seq<Product>): seq<string> {
    if s == [] then []
    else
      var earlier := Keys(s[..|s| - 1]);
      var key := CategoryKey(s[|s| - 1]);
      if key in earlier then earlier else earlier + [key]
  }

  /** The products of `s` filed under `key`, in their order in `s`. */
  function ItemsIn(s: seq<Product>, key: string): seq<Product> {
    Seqs.Filter(s, p => CategoryKey(p) == key)
  }

  function GroupsFor(s: seq<Product>, keys: seq<string>): (groups: seq<Group>)
    ensures |groups| == |keys|
    ensures forall i :: 0 <= i < |keys| ==> groups[i] == Group(keys[i], ItemsIn(s, keys[i]))
  {
    if keys == [] then [] else [Group(keys[0], ItemsIn(s, keys[0]))] + GroupsFor(s, keys[1..])
  }

  /**
   * `Object.entries(groupedProducts)`: one group per key, in the order the keys first occur, as
   * `Object.entries` lists keys that are neither array indices nor `Object.prototype` members.
   */
  function Grouped(s: seq<Product>): seq<Group> {
    GroupsFor(s, Keys(s))
  }

  function TotalSize(groups: seq<Group>): nat {
    if groups == [] then 0 else |groups[0].items| + TotalSize(groups[1..])
  }

  lemma ItemsInAppend(s: seq<Product>, x: Product, key: string)
    ensures ItemsIn(s + [x], key) == ItemsIn(s, key) + (if CategoryKey(x) == key then [x] else [])
  {
    Seqs.FilterAppend(s, [x], p => CategoryKey(p) == key);
    assert [x][1..] == [];
  }

  /**
   * The `reduce` of the page: an object from category to products, filled one product at a time,
   * whose keys remember the order they were first set in. Its entries are the grouping.
   */
  method GroupByCategory(s: seq<Product>) returns (groups: seq<Group>)
    ensures groups == Grouped(s)
  {
    var acc: map<string, seq<Product>> := map[];
    var order: seq<string> := [];
    var i := 0;
    while i < |s|
      invariant 0 <= i <= |s|
      invariant order == Keys(s[..i])
      invariant forall key :: key in acc <==> key in order
      invariant forall key :: key in acc ==> acc[key] == ItemsIn(s[..i], key)
    {
      var product := s[i];
      var category := CategoryKey(product);
      assert s[..i + 1] == s[..i] + [product];
      assert s[..i + 1][..i] == s[..i];
      if category !in acc {
        NewKeyHasNoItems(s[..i], category);
        acc := acc[category := []];
        order := order + [category];
      }
      acc := acc[category := acc[category] + [product]];
      forall key | key in acc
        ensures acc[key] == ItemsIn(s[..i + 1], key)
      {
        ItemsInAppend(s[..i], product, key);
      }
      i := i + 1;
    }
    assert s[..i] == s;
    groups := seq(|order|, k requires 0 <= k < |order| => Group(order[k], acc[order[k]]));
  }

  /** Every key of the grouping belongs to some product, and every product's key is there. */
  lemma {:induction false} KeysCover(s: seq<Product>, key: string)
    ensures key in Keys(s) <==> exists i :: 0 <= i < |s| && CategoryKey(s[i]) == key
  {
    if s != [] {
      var init := s[..|s| - 1];
      KeysCover(init, key);
      assert forall i :: 0 <= i < |init| ==> init[i] == s[i];
    }
  }

  /** No key appears twice. */
  lemma {:induction false} KeysDistinct(s: seq<Product>)
    ensures forall i, j :: 0 <= i < j < |Keys(s)| ==> Keys(s)[i] != Keys(s)[j]
  {
    if s != [] {
      KeysDistinct(s[..|s| - 1]);
    }
  }

  /** Groups come in first-occurrence order: adding products only appends new keys at the end. */
  lemma {:induction false} KeysGrowAtTheEnd(s: seq<Product>, m: nat)
    requires m <= |s|
    ensures Keys(s[..m]) <= Keys(s)
  {
    if m < |s| {
      var init := s[..|s| - 1];
      assert init[..m] == s[..m];
      KeysGrowAtTheEnd(init, m);
    } else {
      assert s[..m] == s;
    }
  }

  /** Each product of `s` is in exactly one group: the one of its own key. */
  lemma ExactlyOneGroup(s: seq<Product>, p: Product)
    requires p in s
    ensures exists i :: 0 <= i < |Grouped(s)| && p in Grouped(s)[i].items
    ensures forall i, j ::
              (0 <= i < |Grouped(s)| && 0 <= j < |Grouped(s)| &&
               p in Grouped(s)[i].items && p in Grouped(s)[j].items) ==> i == j
  {
    var groups := Grouped(s);
    var keys := Keys(s);
    KeysDistinct(s);
    forall i | 0 <= i < |groups|
      ensures p in groups[i].items <==> keys[i] == CategoryKey(p)
    {
      Seqs.FilterMembership(s, q => CategoryKey(q) == keys[i], p);
    }
    var n :| 0 <= n < |s| && s[n] == p;
    KeysCover(s, CategoryKey(p));
    var i :| 0 <= i < |keys| && keys[i] == CategoryKey(p);
    assert p in groups[i].items;
  }

  lemma NewKeyHasNoItems(s: seq<Product>, key: string)
    requires key !in Keys(s)
    ensures ItemsIn(s, key) == []
  {
    if ItemsIn(s, key) != [] {
      var p := ItemsIn(s, key)[0];
      Seqs.FilterMembership(s, q => CategoryKey(q) == key, p);
      KeysCover(s, key);
      assert false;
    }
  }

  lemma {:induction false} TotalSizeAppendProduct(s: seq<Product>, x: Product, keys: seq<string>)
    requires forall i, j :: 0 <= i < j < |keys| ==> keys[i] != keys[j]
    ensures TotalSize(GroupsFor(s + [x], keys))
         == TotalSize(GroupsFor(s, keys)) + (if CategoryKey(x) in keys then 1 else 0)
  {
    if keys != [] {
      ItemsInAppend(s, x, keys[0]);
      TotalSizeAppendProduct(s, x, keys[1..]);
      assert CategoryKey(x) in keys <==> CategoryKey(x) == keys[0] || CategoryKey(x) in keys[1..];
      assert keys[0] !in keys[1..];
    }
  }

  lemma {:induction false} TotalSizeAppendKey(s: seq<Product>, keys: seq<string>, key: string)
    ensures TotalSize(GroupsFor(s, keys + [key])) == TotalSize(GroupsFor(s, keys)) + |ItemsIn(s, key)|
  {
    if keys == [] {
      assert GroupsFor(s, [key])[1..] == [];
    } else {
      assert (keys + [key])[1..] == keys[1..] + [key];
      TotalSizeAppendKey(s, keys[1..], key);
    }
  }

  /** The group sizes add up to the number of products grouped. */
  lemma {:induction false} GroupSizesSum(s: seq<Product>)
    ensures TotalSize(Grouped(s)) == |s|
  {
    if s != [] {
      var init := s[..|s| - 1];
      var x := s[|s| - 1];
      var key := CategoryKey(x);
      assert s == init + [x];
      GroupSizesSum(init);
      KeysDistinct(init);
      TotalSizeAppendProduct(init, x, Keys(init));
      if key !in Keys(init) {
        TotalSizeAppendKey(s, Keys(init), key);
        ItemsInAppend(init, x, key);
        NewKeyHasNoItems(init, key);
      }
    }
  }
}

=== FILE: catalog_sort.dfy ===
/**
 * The sort step of the catalog pipeline (src/components/ViewProducts.js): a comparator on name,
 * price or quantity, negated for descending order, run by the runtime's stable sort.
 */
module CatalogSort {
  import JsText
  import Seqs
  import opened Catalog

  datatype SortField = ByName | ByPrice | ByQuantity

  datatype SortOrder = Asc | Desc

  function Sign(x: real): (r: int)
    ensures -1 <= r <= 1
  {
    if x < 0.0 then -1 else if x > 0.0 then 1 else 0
  }

  /** The sign of `comparison` in the sort callback: `localeCompare` on names, differences on numbers. */
  function Compare(field: SortField, a: Product, b: Product): int {
    match field
    case ByName => JsText.LocaleCompare(a.name, b.name)
    case ByPrice => Sign(a.price - b.price)
    case ByQuantity => Sign((a.quantity - b.quantity) as real)
  }

  /** The callback's result: `comparison` for `asc`, `-comparison` otherwise. */
  function Comparator(field: SortField, order: SortOrder, a: Product, b: Product): int {
    if order == Asc then Compare(field, a, b) else -Compare(field, a, b)
  }

  /** `a` may stand before `b` in the result. */
  predicate Before(field: SortField, order: SortOrder, a: Product, b: Product) {
    Comparator(field, order, a, b) <= 0
  }

  lemma CompareAntisymmetric(field: SortField, a: Product, b: Product)
    ensures Compare(field, a, b) == -Compare(field, b, a)
  {
    if field == ByName {
      JsText.LocaleCompareAntisymmetric(a.name, b.name);
    }
  }

  lemma CompareTransitive(field: SortField, a: Product, b: Product, c: Product)
    requires Compare(field, a, b) <= 0 && Compare(field, b, c) <= 0
    ensures Compare(field, a, c) <= 0
  {
    if field == ByName {
      JsText.LocaleCompareTransitive(a.name, b.name, c.name);
    }
  }

  /** The comparator is a total preorder in either direction, which the runtime's sort requires. */
  lemma BeforeTotal(field: SortField, order: SortOrder, a: Product, b: Product)
    ensures Before(field, order, a, b) || Before(field, order, b, a)
  {
    CompareAntisymmetric(field, a, b);
  }

  lemma BeforeTransitive(field: SortField, order: SortOrder, a: Product, b: Product, c: Product)
    requires Before(field, order, a, b) && Before(field, order, b, c)
    ensures Before(field, order, a, c)
  {
    if order == Asc {
      CompareTransitive(field, a, b, c);
    } else {
      CompareAntisymmetric(field, a, b);
      CompareAntisymmetric(field, b, c);
      CompareAntisymmetric(field, a, c);
      CompareTransitive(field, c, b, a);
    }
  }

  /** Two products with the same key as a third have the same key as each other. */
  lemma SameKeyTransitive(field: SortField, a: Product, b: Product, y: Product)
    requires Compare(field, a, y) == 0 && Compare(field, b, y) == 0
    ensures Compare(field, a, b) == 0
  {
    CompareAntisymmetric(field, b, y);
    CompareAntisymmetric(field, a, y);
    CompareTransitive(field, a, y, b);
    CompareTransitive(field, b, y, a);
    CompareAntisymmetric(field, a, b);
  }

  predicate Sorted(field: SortField, order: SortOrder, r: seq<Product>) {
    forall i, j :: 0 <= i < j < |r| ==> Before(field, order, r[i], r[j])
  }

  /** Puts `x` in front of the first element it may precede, so it stays ahead of its equals. */
  function Insert(field: SortField, order: SortOrder, x: Product, t: seq<Product>): seq<Product> {
    if t == [] || Before(field, order, x, t[0]) then [x] + t
    else [t[0]] + Insert(field, order, x, t[1..])
  }

  /** The stable sort of the pipeline, as an insertion sort from the back of the list. */
  function SortProducts(s: seq<Product>, field: SortField, order: SortOrder): seq<Product> {
    if s == [] then [] else Insert(field, order, s[0], SortProducts(s[1..], field, order))
  }

  lemma {:induction false} InsertMultiset(field: SortField, order: SortOrder, x: Product, t: seq<Product>)
    ensures multiset(Insert(field, order, x, t)) == multiset(t) + multiset{x}
  {
    if !(t == [] || Before(field, order, x, t[0])) {
      InsertMultiset(field, order, x, t[1..]);
      assert t == [t[0]] + t[1..];
    }
  }

  lemma {:induction false} InsertSorted(field: SortField, order: SortOrder, x: Product, t: seq<Product>)
    requires Sorted(field, order, t)
    ensures Sorted(field, order, Insert(field, order, x, t))
  {
    var r := Insert(field, order, x, t);
    if t == [] {
    } else if Before(field, order, x, t[0]) {
      forall i, j | 0 <= i < j < |r|
        ensures Before(field, order, r[i], r[j])
      {
        if i == 0 && j > 1 {
          BeforeTransitive(field, order, x, t[0], t[j - 1]);
        }
      }
    } else {
      BeforeTotal(field, order, x, t[0]);
      var rest := Insert(field, order, x, t[1..]);
      InsertSorted(field, order, x, t[1..]);
      InsertMultiset(field, order, x, t[1..]);
      forall j | 0 <= j < |rest|
        ensures Before(field, order, t[0], rest[j])
      {
        assert rest[j] in multiset(rest);
        if rest[j] != x {
          assert rest[j] in multiset(t[1..]);
          var k :| 0 <= k < |t[1..]| && t[1..][k] == rest[j];
          assert t[k + 1] == rest[j];
        }
      }
      assert r == [t[0]] + rest;
    }
  }

  /** The sorted list is a permutation of its input. */
  lemma {:induction false} SortIsPermutation(s: seq<Product>, field: SortField, order: SortOrder)
    ensures multiset(SortProducts(s, field, order)) == multiset(s)
    ensures |SortProducts(s, field, order)| == |s|
  {
    if s != [] {
      SortIsPermutation(s[1..], field, order);
      InsertMultiset(field, order, s[0], SortProducts(s[1..], field, order));
      assert s == [s[0]] + s[1..];
    }
    assert |multiset(SortProducts(s, field, order))| == |SortProducts(s, field, order)|;
  }

  /** The sorted list is in order: each product may stand before every later one. */
  lemma {:induction false} SortIsSorted(s: seq<Product>, field: SortField, order: SortOrder)
    ensures Sorted(field, order, SortProducts(s, field, order))
  {
    if s != [] {
      SortIsSorted(s[1..], field, order);
      InsertSorted(field, order, s[0], SortProducts(s[1..], field, order));
    }
  }

  /** Under `asc` the chosen key never decreases along the sorted list. */
  lemma SortAscNonDecreasing(s: seq<Product>, field: SortField, i: int, j: int)
    requires 0 <= i < j < |SortProducts(s, field, Asc)|
    ensures var r := SortProducts(s, field, Asc);
            && (field == ByName ==> JsText.LocaleCompare(r[i].name, r[j].name) <= 0)
            && (field == ByPrice ==> r[i].price <= r[j].price)
            && (field == ByQuantity ==> r[i].quantity <= r[j].quantity)
  {
    SortIsSorted(s, field, Asc);
  }

  /** Products with the same key as `y`. */
  function SameKey(field: SortField, s: seq<Product>, y: Product): seq<Product> {
    Seqs.Filter(s, e => Compare(field, e, y) == 0)
  }

  lemma {:induction false} InsertStable(field: SortField, order: SortOrder, x: Product, t: seq<Product>, y: Product)
    ensures SameKey(field, Insert(field, order, x, t), y)
         == (if Compare(field, x, y) == 0 then [x] else []) + SameKey(field, t, y)
  {
    var keep := e => Compare(field, e, y) == 0;
    if t == [] || Before(field, order, x, t[0]) {
      Seqs.FilterAppend([x], t, keep);
    } else {
      InsertStable(field, order, x, t[1..], y);
      Seqs.FilterAppend([t[0]], Insert(field, order, x, t[1..]), keep);
      Seqs.FilterAppend([t[0]], t[1..], keep);
      assert t == [t[0]] + t[1..];
      if Compare(field, x, y) == 0 && Compare(field, t[0], y) == 0 {
        SameKeyTransitive(field, x, t[0], y);
        assert false;
      }
    }
  }

  /** The sort is stable: products with equal keys keep their input order. */
  lemma {:induction false} SortIsStable(s: seq<Product>, field: SortField, order: SortOrder, y: Product)
    ensures SameKey(field, SortProducts(s, field, order), y) == SameKey(field, s, y)
  {
    if s != [] {
      SortIsStable(s[1..], field, order, y);
      InsertStable(field, order, s[0], SortProducts(s[1..], field, order), y);
      Seqs.FilterAppend([s[0]], s[1..], e => Compare(field, e, y) == 0);
      assert s == [s[0]] + s[1..];
    }
  }

  /** No two different products of `s` share a key. */
  predicate DistinctKeys(field: SortField, s: seq<Product>) {
    forall x, y :: x in s && y in s && Compare(field, x, y) == 0 ==> x == y
  }

  /** Two sorted arrangements of one collection with distinct keys start with the same product. */
  lemma SortedHeadsEqual(field: SortField, order: SortOrder, a: seq<Product>, b: seq<Product>)
    requires a != [] && multiset(a) == multiset(b)
    requires Sorted(field, order, a) && Sorted(field, order, b)
    requires DistinctKeys(field, a)
    ensures b != [] && a[0] == b[0]
  {
    assert b[0] in multiset(a) && a[0] in multiset(b);
    var k :| 0 <= k < |a| && a[k] == b[0];
    var m :| 0 <= m < |b| && b[m] == a[0];
    assert Before(field, order, a[0], b[0]) by {
      if k == 0 {
        BeforeTotal(field, order, a[0], a[0]);
      }
    }
    assert Before(field, order, b[0], a[0]) by {
      if m == 0 {
        BeforeTotal(field, order, b[0], b[0]);
      }
    }
    CompareAntisymmetric(field, a[0], b[0]);
  }

  /** With distinct keys there is only one sorted arrangement of a collection. */
  lemma {:induction false} SortedUnique(field: SortField, order: SortOrder, a: seq<Product>, b: seq<Product>)
    requires multiset(a) == multiset(b)
    requires Sorted(field, order, a) && Sorted(field, order, b)
    requires DistinctKeys(field, a)
    ensures a == b
  {
    if a == [] {
      assert |b| == |multiset(b)| == 0;
    } else {
      SortedHeadsEqual(field, order, a, b);
      assert a == [a[0]] + a[1..] && b == [b[0]] + b[1..];
      assert multiset(a[1..]) == multiset(a) - multiset{a[0]};
      assert multiset(b[1..]) == multiset(b) - multiset{b[0]};
      SortedUnique(field, order, a[1..], b[1..]);
    }
  }

  /** Reversing a list sorted one way gives a list sorted the other way. */
  lemma ReverseSorted(field: SortField, r: seq<Product>)
    requires Sorted(field, Asc, r)
    ensures Sorted(field, Desc, Seqs.Reverse(r))
  {
    var rev := Seqs.Reverse(r);
    forall i, j | 0 <= i < j < |rev|
      ensures Before(field, Desc, rev[i], rev[j])
    {
      assert Before(field, Asc, r[|r| - 1 - j], r[|r| - 1 - i]);
      CompareAntisymmetric(field, rev[i], rev[j]);
    }
  }

  /** With distinct keys, toggling `asc` to `desc` shows exactly the reverse order. */
  lemma DescIsReverseOfAsc(s: seq<Product>, field: SortField)
    requires DistinctKeys(field, s)
    ensures SortProducts(s, field, Desc) == Seqs.Reverse(SortProducts(s, field, Asc))
  {
    var asc := SortProducts(s, field, Asc);
    var desc := SortProducts(s, field, Desc);
    SortIsPermutation(s, field, Asc);
    SortIsPermutation(s, field, Desc);
    SortIsSorted(s, field, Asc);
    SortIsSorted(s, field, Desc);
    ReverseSorted(field, asc);
    Seqs.ReverseMultiset(asc);
    forall x, y | x in desc && y in desc && Compare(field, x, y) == 0
      ensures x == y
    {
      assert x in multiset(desc) && y in multiset(desc);
    }
    SortedUnique(field, Desc, desc, Seqs.Reverse(asc));
  }
}

=== FILE: edit_product.dfy ===
/**
 * The edit form (src/components/EditProduct.js): every input holds text; the change handler
 * normalises numeric text through `parseFloat`/`parseInt` and `toString`, the validator checks
 * the text, and the submit handler parses it into the `PUT` payload.
 */
module EditProduct {
  import opened Wrappers
  import JsText
  import opened JsNumber
  import opened ProductForm

  /**
   * The `product` state: the text of every input. `unit` is not an input of this form; it is
   * carried over from the loaded product by the object spread.
   */
  datatype Draft = Draft(
    name: string,
    description: string,
    categoryId: string,
    brand: string,
    price: string,
    quantity: string,
    unit: string,
    discount: string,
    expiryDate: string,
    minStockLevel: string,
    reorderQuantity: string)
  {
    function Get(f: Field): string {
      match f
      case Name => name
      case Description => description
      case CategoryId => categoryId
      case Brand => brand
      case Price => price
      case Quantity => quantity
      case Unit => unit
      case Discount => discount
      case ExpiryDate => expiryDate
      case MinStockLevel => minStockLevel
      case ReorderQuantity => reorderQuantity
    }

    /** `{...prev, [f]: v}`: field `f` becomes `v` and no other field changes. */
    function With(f: Field, v: string): (d: Draft)
      ensures d.Get(f) == v
      ensures forall g :: g != f ==> d.Get(g) == Get(g)
    {
      match f
      case Name => this.(name := v)
      case Description => this.(description := v)
      case CategoryId => this.(categoryId := v)
      case Brand => this.(brand := v)
      case Price => this.(price := v)
      case Quantity => this.(quantity := v)
      case Unit => this.(unit := v)
      case Discount => this.(discount := v)
      case ExpiryDate => this.(expiryDate := v)
      case MinStockLevel => this.(minStockLevel := v)
      case ReorderQuantity => this.(reorderQuantity := v)
    }
  }

  const EmptyDraft := Draft("", "", "", "", "", "", "", "", "", "", "")

  /**
   * The text the change handler stores for `value` typed into `f`; `None` when it returns early
   * because the number did not parse. Price goes through `parseFloat`, the other numbers through
   * `parseInt`, and a parsed number is stored as its `toString`.
   */
  function Coerce(f: Field, value: string): (r: Option<string>)
    ensures !IsNumeric(f) || value == "" ==> r == Some(value)
    ensures IsNumeric(f) && f != Price && value != "" ==>
              (r.Some? <==> ParseInt(value).Some?)
    ensures f == Price && value != "" ==> (r.Some? <==> ParseDecimal(value).Some?)
  {
    if !IsNumeric(f) || value == "" then Some(value)
    else if f == Price then
      match ParseDecimal(value)
      case Some(d) => Some(DecimalToString(d))
      case None => None
    else
      match ParseInt(value)
      case Some(n) => Some(IntToString(n))
      case None => None
  }

  /**
   * Normalising keeps the number the field stands for: price text keeps its `parseFloat`, and
   * the other numeric fields keep their `parseInt`, so a typed discount is cut to whole percent.
   */
  lemma CoercePreservesNumber(f: Field, value: string)
    requires IsNumeric(f) && value != "" && Coerce(f, value).Some?
    ensures f == Price ==> ParseFloat(Coerce(f, value).value) == ParseFloat(value)
    ensures f != Price ==> ParseInt(Coerce(f, value).value) == ParseInt(value)
    ensures f == Discount ==> ParseFloat(Coerce(f, value).value) == Some(ParseInt(value).value as real)
  {
    if f == Price {
      ParseDecimalOfDecimalToString(ParseDecimal(value).value);
    } else {
      ParseIntOfIntToString(ParseInt(value).value);
      if f == Discount {
        ParseFloatOfIntToString(ParseInt(value).value);
      }
    }
  }

  /** Normalised text normalises to itself: typing back what the form shows changes nothing. */
  lemma CoerceIdempotent(f: Field, value: string)
    requires Coerce(f, value).Some?
    ensures Coerce(f, Coerce(f, value).value) == Coerce(f, value)
  {
    if IsNumeric(f) && value != "" {
      if f == Price {
        ParseDecimalOfDecimalToString(ParseDecimal(value).value);
      } else {
        ParseIntOfIntToString(ParseInt(value).value);
      }
    }
  }

  /**
   * A whole number followed by a fraction, typed into a numeric field other than price, is stored
   * as the whole number: `'3.7'` becomes `'3'`.
   */
  lemma CoerceTruncatesFraction(f: Field, n: int, fraction: string)
    requires IsNumeric(f) && f != Price && fraction != []
    ensures Coerce(f, IntToString(n) + "." + fraction) == Some(IntToString(n))
  {
    ParseIntAfterIntToString(n, "." + fraction);
    assert IntToString(n) + "." + fraction == IntToString(n) + ("." + fraction);
  }

  /** Price text as `toString` prints it is stored unchanged: `'3.7'` stays `'3.7'`. */
  lemma CoerceKeepsPrintedPrice(d: Decimal)
    requires Canonical(d)
    ensures Coerce(Price, DecimalToString(d)) == Some(DecimalToString(d))
  {
    ParseDecimalOfDecimalToString(d);
  }

  /** Text in field `f` that the submit handler parses to a number, or the empty text. */
  predicate FieldReadable(f: Field, s: string) {
    if f == Price || f == Discount then s == "" || ParseFloat(s).Some?
    else if IsNumeric(f) then s == "" || ParseInt(s).Some?
    else true
  }

  /** The draft invariant: no numeric field holds text that would be sent as `NaN`. */
  predicate Readable(d: Draft) {
    && FieldReadable(Price, d.price)
    && FieldReadable(Quantity, d.quantity)
    && FieldReadable(Discount, d.discount)
    && FieldReadable(MinStockLevel, d.minStockLevel)
    && FieldReadable(ReorderQuantity, d.reorderQuantity)
  }

  /** Whatever the change handler stores, the submit handler can parse. */
  lemma CoerceReadable(f: Field, value: string)
    requires Coerce(f, value).Some?
    ensures FieldReadable(f, Coerce(f, value).value)
  {
    if IsNumeric(f) && value != "" {
      if f == Price {
        ParseDecimalOfDecimalToString(ParseDecimal(value).value);
      } else if f == Discount {
        ParseFloatOfIntToString(ParseInt(value).value);
      } else {
        ParseIntOfIntToString(ParseInt(value).value);
      }
    }
  }

  /** A change the handler accepts keeps the draft invariant. */
  lemma ChangeKeepsReadable(d: Draft, f: Field, value: string)
    requires Readable(d) && Coerce(f, value).Some?
    ensures Readable(d.With(f, Coerce(f, value).value))
  {
    CoerceReadable(f, value);
  }

  /** The product as `GET /products/{id}` returns it; decimals are exact and canonical. */
  datatype StoredProduct = StoredProduct(
    name: string,
    description: string,
    categoryId: string,
    brand: string,
    price: Decimal,
    quantity: int,
    unit: string,
    discount: Option<Decimal>,
    expiryDate: string,
    minStockLevel: Option<int>,
    reorderQuantity: Option<int>)

  predicate WellFormed(p: StoredProduct) {
    Canonical(p.price) && (p.discount.Some? ==> Canonical(p.discount.value))
  }

  /** `x?.toString() || ''` for an optional decimal. */
  function OptionalDecimalText(x: Option<Decimal>): string
    requires x.Some? ==> Canonical(x.value)
  {
    if x.Some? then DecimalToString(x.value) else ""
  }

  /** `x?.toString() || ''` for an optional integer. */
  function OptionalIntText(x: Option<int>): string {
    if x.Some? then IntToString(x.value) else ""
  }

  /** The draft the form starts from once the product has loaded. */
  function LoadDraft(p: StoredProduct): Draft
    requires WellFormed(p)
  {
    Draft(p.name, p.description, p.categoryId, p.brand, DecimalToString(p.price), IntToString(p.quantity),
          p.unit, OptionalDecimalText(p.discount), p.expiryDate, OptionalIntText(p.minStockLevel),
          OptionalIntText(p.reorderQuantity))
  }

  /**
   * The loaded text reads back as the stored numbers; a missing optional number becomes the empty
   * text and a present one never does.
   */
  lemma LoadDraftReadsBack(p: StoredProduct)
    requires WellFormed(p)
    ensures var d := LoadDraft(p);
            && ParseDecimal(d.price) == Some(p.price)
            && ParseInt(d.quantity) == Some(p.quantity)
            && (d.discount == "" <==> p.discount.None?)
            && (p.discount.Some? ==> ParseDecimal(d.discount) == p.discount)
            && (d.minStockLevel == "" <==> p.minStockLevel.None?)
            && (p.minStockLevel.Some? ==> ParseInt(d.minStockLevel) == p.minStockLevel)
            && (d.reorderQuantity == "" <==> p.reorderQuantity.None?)
            && (p.reorderQuantity.Some? ==> ParseInt(d.reorderQuantity) == p.reorderQuantity)
  {
    ParseDecimalOfDecimalToString(p.price);
    ParseIntOfIntToString(p.quantity);
    if p.discount.Some? {
      ParseDecimalOfDecimalToString(p.discount.value);
    }
    if p.minStockLevel.Some? {
      ParseIntOfIntToString(p.minStockLevel.value);
    }
    if p.reorderQuantity.Some? {
      ParseIntOfIntToString(p.reorderQuantity.value);
    }
  }

  /** The draft the form loads keeps the invariant. */
  lemma LoadDraftReadable(p: StoredProduct)
    requires WellFormed(p)
    ensures Readable(LoadDraft(p))
  {
    var d := LoadDraft(p);
    assert FieldReadable(Price, d.price) by {
      ParseDecimalOfDecimalToString(p.price);
    }
    assert FieldReadable(Quantity, d.quantity) by {
      ParseIntOfIntToString(p.quantity);
    }
    assert FieldReadable(Discount, d.discount) by {
      if p.discount.Some? {
        ParseDecimalOfDecimalToString(p.discount.value);
      }
    }
    assert FieldReadable(MinStockLevel, d.minStockLevel) by {
      if p.minStockLevel.Some? {
        ParseIntOfIntToString(p.minStockLevel.value);
      }
    }
    assert FieldReadable(ReorderQuantity, d.reorderQuantity) by {
      if p.reorderQuantity.Some? {
        ParseIntOfIntToString(p.reorderQuantity.value);
      }
    }
  }

  const PricePositive := "Price must be greater than 0"
  const ReorderPositive := "Reorder quantity must be greater than 0"
  const ExpiryInPast := "Expiry date cannot be in the past"

  /**
   * The numbers `validateForm` compares: `parseFloat`/`parseInt` of the numeric text (`None` is
   * `NaN`), and the expiry date read by `parseDate`, which is `new Date(text)` as an instant
   * (`None` for an invalid date).
   */
  datatype Reading = Reading(
    price: Option<real>,
    quantity: Option<int>,
    discount: Option<real>,
    minStockLevel: Option<int>,
    reorderQuantity: Option<int>,
    expiryDate: Option<int>)

  function Read(d: Draft, parseDate: string -> Option<int>): Reading {
    Reading(ParseFloat(d.price), ParseInt(d.quantity), ParseFloat(d.discount), ParseInt(d.minStockLevel),
            ParseInt(d.reorderQuantity), parseDate(d.expiryDate))
  }

  /**
   * Whether `validateForm` flags field `f` of `d`, given the numbers `r` read from it and the
   * current instant `now`. A `NaN` compares false, so it is flagged only where the field is also
   * required.
   */
  predicate Flags(d: Draft, r: Reading, f: Field, now: int) {
    match f
    case Name => JsText.Trim(d.name) == ""
    case CategoryId => d.categoryId == ""
    case Price => d.price == "" || (r.price.Some? && r.price.value <= 0.0)
    case Quantity => d.quantity == "" || (r.quantity.Some? && r.quantity.value < 0)
    case Discount =>
      d.discount != "" && r.discount.Some? && (r.discount.value < 0.0 || r.discount.value > 100.0)
    case MinStockLevel => d.minStockLevel != "" && r.minStockLevel.Some? && r.minStockLevel.value < 0
    case ReorderQuantity => d.reorderQuantity != "" && r.reorderQuantity.Some? && r.reorderQuantity.value <= 0
    case ExpiryDate => d.expiryDate != "" && r.expiryDate.Some? && r.expiryDate.value < now
    case _ => false
  }

  function Message(f: Field): string {
    match f
    case Name => NameRequired
    case CategoryId => CategoryRequired
    case Price => PricePositive
    case Quantity => QuantityNotNegative
    case Discount => DiscountRange
    case MinStockLevel => MinStockNotNegative
    case ReorderQuantity => ReorderPositive
    case ExpiryDate => ExpiryInPast
    case _ => ""
  }

  const ValidatedFields: set<Field> :=
    {Name, CategoryId, Price, Quantity, Discount, MinStockLevel, ReorderQuantity, ExpiryDate}

  /**
   * The error object `validateForm` builds from `d` and its numbers `r`: a message for exactly the
   * flagged fields, and nothing else.
   */
  function ErrorsOf(d: Draft, r: Reading, now: int): (errors: Errors)
    ensures forall f :: f in errors <==> Flags(d, r, f, now)
    ensures forall f :: f in errors ==> errors[f] == Some(Message(f)) && Message(f) != ""
  {
    map f | f in ValidatedFields && Flags(d, r, f, now) :: Some(Message(f))
  }

  function ValidationErrors(d: Draft, parseDate: string -> Option<int>, now: int): Errors {
    ErrorsOf(d, Read(d, parseDate), now)
  }

  /** An optional field left empty is never flagged. */
  lemma EmptyOptionalFieldsPass(d: Draft, parseDate: string -> Option<int>, now: int, f: Field)
    requires f in {Discount, MinStockLevel, ReorderQuantity, ExpiryDate} && d.Get(f) == ""
    ensures f !in ValidationErrors(d, parseDate, now)
  {
  }

  /** The `PUT` body: the draft's text, with the numbers parsed and empty optionals sent as `null`. */
  datatype Payload = Payload(
    name: string,
    description: string,
    categoryId: string,
    brand: string,
    price: JsValue,
    quantity: JsValue,
    unit: string,
    discount: JsValue,
    expiryDate: string,
    minStockLevel: JsValue,
    reorderQuantity: JsValue)

  function FloatValue(x: Option<real>): JsValue {
    if x.Some? then Num(x.value) else NaN
  }

  function IntValue(n: Option<int>): JsValue {
    if n.Some? then Num(n.value as real) else NaN
  }

  /** `text ? parseFloat(text) : null`. */
  function OptionalFloat(text: string): JsValue {
    if text != "" then FloatValue(ParseFloat(text)) else Null
  }

  /** `text ? parseInt(text) : null`. */
  function OptionalInt(text: string): JsValue {
    if text != "" then IntValue(ParseInt(text)) else Null
  }

  function MakePayload(d: Draft): Payload {
    Payload(
      d.name, d.description, d.categoryId, d.brand,
      FloatValue(ParseFloat(d.price)),
      IntValue(ParseInt(d.quantity)),
      d.unit,
      OptionalFloat(d.discount),
      d.expiryDate,
      OptionalInt(d.minStockLevel),
      OptionalInt(d.reorderQuantity))
  }

  // One lemma per numeric field: the text keeps the invariant and `r` holds its number.

  lemma PriceSentPositive(d: Draft, r: Reading, now: int)
    requires r.price == ParseFloat(d.price)
    requires FieldReadable(Price, d.price) && !Flags(d, r, Price, now)
    ensures var x := FloatValue(ParseFloat(d.price)); x.Num? && x.x > 0.0
  {
  }

  lemma QuantitySentWhole(d: Draft, r: Reading, now: int)
    requires r.quantity == ParseInt(d.quantity)
    requires FieldReadable(Quantity, d.quantity) && !Flags(d, r, Quantity, now)
    ensures var x := IntValue(ParseInt(d.quantity)); x.Num? && x.x >= 0.0 && x.x == x.x.Floor as real
  {
  }

  lemma DiscountSentInRange(d: Draft, r: Reading, now: int)
    requires r.discount == ParseFloat(d.discount)
    requires FieldReadable(Discount, d.discount) && !Flags(d, r, Discount, now)
    ensures var x := OptionalFloat(d.discount);
            && (x.Null? <==> d.discount == "")
            && (x.Null? || (x.Num? && 0.0 <= x.x <= 100.0))
  {
  }

  lemma MinStockSentInRange(d: Draft, r: Reading, now: int)
    requires r.minStockLevel == ParseInt(d.minStockLevel)
    requires FieldReadable(MinStockLevel, d.minStockLevel) && !Flags(d, r, MinStockLevel, now)
    ensures var x := OptionalInt(d.minStockLevel);
            && (x.Null? <==> d.minStockLevel == "")
            && (x.Null? || (x.Num? && x.x >= 0.0))
  {
  }

  lemma ReorderSentInRange(d: Draft, r: Reading, now: int)
    requires r.reorderQuantity == ParseInt(d.reorderQuantity)
    requires FieldReadable(ReorderQuantity, d.reorderQuantity) && !Flags(d, r, ReorderQuantity, now)
    ensures var x := OptionalInt(d.reorderQuantity);
            && (x.Null? <==> d.reorderQuantity == "")
            && (x.Null? || (x.Num? && x.x > 0.0))
  {
  }

  /**
   * A draft that keeps the invariant and passes validation yields a payload without `NaN`: a
   * positive price, a non-negative whole quantity, and optional numbers that are `null` exactly
   * when left empty and otherwise within their range.
   */
  lemma ValidPayloadInRange(d: Draft, parseDate: string -> Option<int>, now: int)
    requires Readable(d) && ValidationErrors(d, parseDate, now) == map[]
    ensures var p := MakePayload(d);
            && p.price.Num? && p.price.x > 0.0
            && p.quantity.Num? && p.quantity.x >= 0.0 && p.quantity.x == p.quantity.x.Floor as real
            && (p.discount.Null? <==> d.discount == "")
            && (p.discount.Null? || (p.discount.Num? && 0.0 <= p.discount.x <= 100.0))
            && (p.minStockLevel.Null? <==> d.minStockLevel == "")
            && (p.minStockLevel.Null? || (p.minStockLevel.Num? && p.minStockLevel.x >= 0.0))
            && (p.reorderQuantity.Null? <==> d.reorderQuantity == "")
            && (p.reorderQuantity.Null? || (p.reorderQuantity.Num? && p.reorderQuantity.x > 0.0))
  {
    var r := Read(d, parseDate);
    var errors := ErrorsOf(d, r, now);
    assert Price !in errors && Quantity !in errors && Discount !in errors;
    assert MinStockLevel !in errors && ReorderQuantity !in errors;
    PriceSentPositive(d, r, now);
    QuantitySentWhole(d, r, now);
    DiscountSentInRange(d, r, now);
    MinStockSentInRange(d, r, now);
    ReorderSentInRange(d, r, now);
  }

  /** The payload copies every text field of the draft unchanged. */
  lemma PayloadCopiesText(d: Draft)
    ensures var p := MakePayload(d);
            && p.name == d.name && p.description == d.description && p.categoryId == d.categoryId
            && p.brand == d.brand && p.unit == d.unit && p.expiryDate == d.expiryDate
  {
  }

  const ProductsUrl := "http://localhost:5000/api/products/"
  const FetchFailed := "Error fetching product data"
  const UpdateFailed := "Error updating product"

  /** A request the form sends: the URL and the body of a `PUT`. */
  datatype PutRequest = PutRequest(url: string, body: Payload)

  /** What `Promise.all` of the two loads gives: both bodies, or the failure of either. */
  datatype Loaded = Loaded(product: StoredProduct, categories: seq<Category>) | LoadFailed(message: Option<string>)

  /** The form's state hooks; `id` is the route parameter. */
  class EditForm {
    const id: string
    var loading: bool
    var error: Option<string>
    var categories: seq<Category>
    var validationErrors: Errors
    var product: Draft

    /** No numeric field of the draft would be sent as `NaN`. */
    predicate Valid()
      reads this
    {
      Readable(product)
    }

    constructor (id: string)
      ensures Valid()
      ensures this.id == id && loading && error == None && categories == []
      ensures validationErrors == map[] && product == EmptyDraft
    {
      this.id := id;
      loading := true;
      error := None;
      categories := [];
      validationErrors := map[];
      product := EmptyDraft;
    }

    /** `fetchData` once both requests are settled. */
    method FetchData(loaded: Loaded)
      requires Valid()
      requires loaded.Loaded? ==> WellFormed(loaded.product)
      modifies this
      ensures Valid()
      ensures !loading
      ensures loaded.Loaded? ==> product == LoadDraft(loaded.product) && categories == loaded.categories
                                 && error == None
      ensures loaded.LoadFailed? ==> product == old(product) && categories == old(categories)
                                     && error == Some(FailureText(loaded.message, FetchFailed))
      ensures validationErrors == old(validationErrors)
    {
      loading := true;
      error := None;
      if loaded.Loaded? {
        LoadDraftReadable(loaded.product);
        product := LoadDraft(loaded.product);
        categories := loaded.categories;
      } else {
        error := Some(FailureText(loaded.message, FetchFailed));
      }
      loading := false;
    }

    /** `validateForm`: fills the error object check by check, stores it, and reports whether it is empty. */
    method ValidateForm(parseDate: string -> Option<int>, now: int) returns (ok: bool)
      modifies this
      ensures validationErrors == ValidationErrors(product, parseDate, now)
      ensures ok <==> validationErrors == map[]
      ensures product == old(product) && loading == old(loading) && error == old(error)
      ensures categories == old(categories)
    {
      var errors := ValidationErrors(product, parseDate, now);
      validationErrors := errors;
      ok := |errors| == 0;
      NoKeysIffEmpty(errors);
    }

    /** `handleChange` for input `f` receiving `value`. */
    method HandleChange(f: Field, value: string)
      requires Valid()
      modifies this
      ensures Valid()
      ensures Coerce(f, value).None? ==> product == old(product) && validationErrors == old(validationErrors)
      ensures Coerce(f, value).Some? ==>
                product == old(product).With(f, Coerce(f, value).value)
                && validationErrors == Cleared(old(validationErrors), f)
      ensures loading == old(loading) && error == old(error) && categories == old(categories)
    {
      var processed := Coerce(f, value);
      if processed.Some? {
        ChangeKeepsReadable(product, f, value);
        product := product.With(f, processed.value);
        if HasMessage(validationErrors, f) {
          validationErrors := validationErrors[f := None];
        }
      }
    }

    /**
     * `handleSubmit`: validates, and only a valid draft is sent. `outcome` is how the `PUT` ended;
     * the results are the request sent, if any, and the path navigated to, if any.
     */
    method HandleSubmit(parseDate: string -> Option<int>, now: int, outcome: Outcome)
      returns (request: Option<PutRequest>, navigateTo: Option<string>)
      modifies this
      ensures validationErrors == ValidationErrors(old(product), parseDate, now)
      ensures product == old(product) && categories == old(categories)
      ensures validationErrors != map[] ==>
                request == None && navigateTo == None && loading == old(loading) && error == old(error)
      ensures validationErrors == map[] ==>
                request == Some(PutRequest(ProductsUrl + id, MakePayload(product))) && !loading
      ensures validationErrors == map[] && outcome.Succeeded? ==> navigateTo == Some("/products") && error == None
      ensures validationErrors == map[] && outcome.Failed? ==>
                navigateTo == None && error == Some(FailureText(outcome.message, UpdateFailed))
    {
      request := None;
      navigateTo := None;
      var ok := ValidateForm(parseDate, now);
      if !ok {
        return;
      }
      loading := true;
      error := None;
      request := Some(PutRequest(ProductsUrl + id, MakePayload(product)));
      if outcome.Succeeded? {
        navigateTo := Some("/products");
      } else {
        error := Some(FailureText(outcome.message, UpdateFailed));
      }
      loading := false;
    }
  }

  /** Whatever the user types, a request the form sends carries no `NaN` and numbers in range. */
  method EditAndSubmit(form: EditForm, edits: seq<(Field, string)>, parseDate: string -> Option<int>,
                       now: int, outcome: Outcome)
    returns (request: Option<PutRequest>)
    requires form.Valid()
    modifies form
    ensures request.Some? ==> request.value.body.price.Num? && request.value.body.price.x > 0.0
                              && request.value.body.quantity.Num? && request.value.body.quantity.x >= 0.0
  {
    var i := 0;
    while i < |edits|
      invariant 0 <= i <= |edits|
      invariant form.Valid()
    {
      form.HandleChange(edits[i].0, edits[i].1);
      i := i + 1;
    }
    var d := form.product;
    var navigateTo;
    request, navigateTo := form.HandleSubmit(parseDate, now, outcome);
    if request.Some? {
      ValidPayloadInRange(d, parseDate, now);
    }
  }
}

=== FILE: forms.dfy ===
/**
 * What the add and edit forms (src/components/AddProduct.js, src/components/EditProduct.js) share:
 * the names of their inputs, the error object keyed by input, and how a request's failure is
 * turned into the page's error text.
 */
module ProductForm {
  import opened Wrappers

  /** The `name` attribute of each input. */
  datatype Field =
    | Name | Description | CategoryId | Brand | Price | Quantity | Unit | Discount | ExpiryDate
    | MinStockLevel | ReorderQuantity

  /** The inputs whose change handler converts the typed text into a number. */
  predicate IsNumeric(f: Field) {
    f.Price? || f.Quantity? || f.Discount? || f.MinStockLevel? || f.ReorderQuantity?
  }

  /**
   * The `validationErrors` object: a key maps to a message, or to `undefined` (`None`) once the
   * error has been cleared; a cleared key stays in the object.
   */
  type Errors = map<Field, Option<string>>

  /** `if (validationErrors[name])`: the field holds a message, and an empty one is falsy. */
  predicate HasMessage(errors: Errors, f: Field) {
    f in errors && errors[f].Some? && errors[f].value != ""
  }

  /**
   * The error clearing in the change handlers: a field that holds a message is set to
   * `undefined`; its key stays, and every other entry is left alone.
   */
  function Cleared(errors: Errors, f: Field): (r: Errors)
    ensures r.Keys == errors.Keys
    ensures !HasMessage(r, f)
    ensures HasMessage(errors, f) ==> r[f] == None
    ensures forall g :: g in errors && g != f ==> r[g] == errors[g]
    ensures !HasMessage(errors, f) ==> r == errors
  {
    if HasMessage(errors, f) then errors[f := None] else errors
  }

  /** `Object.keys(errors).length === 0` holds exactly for the empty error object. */
  lemma NoKeysIffEmpty(errors: Errors)
    ensures |errors| == 0 <==> errors == map[]
  {
  }

  /** The field edits a user makes one after another, each clearing its own error. */
  function ClearedAll(errors: Errors, edits: seq<Field>): Errors {
    if edits == [] then errors else ClearedAll(Cleared(errors, edits[0]), edits[1..])
  }

  /**
   * No sequence of edits removes a key from the error object, so `Object.keys(...).length` never
   * drops back to zero once a validation has failed.
   */
  lemma {:induction false} ClearedAllKeepsKeys(errors: Errors, edits: seq<Field>)
    ensures ClearedAll(errors, edits).Keys == errors.Keys
    ensures |ClearedAll(errors, edits)| == |errors|
  {
    if edits != [] {
      ClearedAllKeepsKeys(Cleared(errors, edits[0]), edits[1..]);
    }
    assert |ClearedAll(errors, edits).Keys| == |errors.Keys|;
  }

  // The messages both validators give.
  const NameRequired := "Product name is required"
  const CategoryRequired := "Category is required"
  const QuantityNotNegative := "Quantity cannot be negative"
  const DiscountRange := "Discount must be between 0 and 100"
  const MinStockNotNegative := "Minimum stock level cannot be negative"

  /** How a request ended: it succeeded, or it failed with the server's `message`, if any. */
  datatype Outcome = Succeeded | Failed(message: Option<string>)

  /** `err.response?.data?.message || fallback`. */
  function FailureText(message: Option<string>, fallback: string): (text: string)
    requires fallback != ""
    ensures text != ""
    ensures message.Some? && message.value != "" ==> text == message.value
    ensures message.None? || message.value == "" ==> text == fallback
  {
    if message.Some? && message.value != "" then message.value else fallback
  }

  /** A category as `GET /categories` returns it, for the select box. */
  datatype Category = Category(id: string, name: string)
}

=== FILE: js_number.dfy ===
/**
 * The JavaScript number built-ins the forms use: `parseInt`, `parseFloat`, `Number`, `toString`,
 * and the conversions `<`, `>` and `||` apply to form values.
 *
 * Numbers are exact here. A number that a form parses is a decimal literal, and `Decimal` is its
 * canonical form: no leading zeros in `whole`, no trailing zeros in `fraction`, and no negative zero.
 * `toString` of such a number prints that canonical form, which is what JavaScript prints for
 * magnitudes from 1e-6 up to 1e21 with at most 15 significant digits (integers up to 2^53); below 1e-6 and from 1e21
 * on, JavaScript prints an exponent form (`1e-7`) that is not modelled.
 */
module JsNumber {
  import opened Wrappers
  import JsText

  predicate IsDigit(c: char) { '0' <= c <= '9' }

  predicate AllDigits(s: string) { forall i :: 0 <= i < |s| ==> IsDigit(s[i]) }

  function DigitValue(c: char): nat
    requires IsDigit(c)
  {
    c as int - '0' as int
  }

  function DigitChar(d: nat): (c: char)
    requires d < 10
    ensures IsDigit(c) && DigitValue(c) == d
  {
    ('0' as int + d) as char
  }

  /** The longest prefix of `s` made of decimal digits. */
  function LeadingDigits(s: string): (r: string)
    ensures r <= s && AllDigits(r)
    ensures |r| < |s| ==> !IsDigit(s[|r|])
  {
    if s != [] && IsDigit(s[0]) then [s[0]] + LeadingDigits(s[1..]) else []
  }

  lemma {:induction false} LeadingDigitsOfDigitsThenOther(a: string, b: string)
    requires AllDigits(a)
    requires b == [] || !IsDigit(b[0])
    ensures LeadingDigits(a + b) == a
  {
    if a == [] {
      assert a + b == b;
    } else {
      assert (a + b)[1..] == a[1..] + b;
      LeadingDigitsOfDigitsThenOther(a[1..], b);
    }
  }

  /** The value of a digit string, most significant digit first. */
  function DigitsValue(s: string): nat
    requires AllDigits(s)
  {
    if s == [] then 0 else 10 * DigitsValue(s[..|s| - 1]) + DigitValue(s[|s| - 1])
  }

  /** `n.toString()` for a non-negative integer: the digits that read back as `n`. */
  function NatToString(n: nat): (r: string)
    ensures r != [] && AllDigits(r) && DigitsValue(r) == n
  {
    if n < 10 then [DigitChar(n)]
    else
      var r := NatToString(n / 10) + [DigitChar(n % 10)];
      assert r[..|r| - 1] == NatToString(n / 10);
      r
  }

  /** `n.toString()` for an integer. */
  function IntToString(n: int): (r: string)
    ensures r != []
  {
    if n < 0 then "-" + NatToString(-n) else NatToString(n)
  }

  /** Length of an optional leading sign. */
  function SignLength(t: string): nat {
    if t != [] && (t[0] == '+' || t[0] == '-') then 1 else 0
  }

  /**
   * `parseInt(s)` read in decimal (a `0x` prefix, which `parseInt` reads as hexadecimal, is not
   * modelled): skip leading white space, read an optional sign and then as many
   * digits as follow; `None` is `NaN`, when no digit follows.
   */
  function ParseInt(s: string): Option<int> {
    var t := JsText.TrimStart(s);
    var k := SignLength(t);
    var w := LeadingDigits(t[k..]);
    var magnitude: int := if w == [] then 0 else DigitsValue(w);
    if w == [] then None
    else if k == 1 && t[0] == '-' then Some(-magnitude)
    else Some(magnitude)
  }

  /** The minus sign `toString` prints before a negative number. */
  function SignText(negative: bool): string {
    if negative then "-" else ""
  }

  function SignedValue(negative: bool, magnitude: nat): int {
    if negative then -(magnitude as int) else magnitude
  }

  /** `parseInt` of an optional minus sign, digits, and text that does not continue the digits. */
  lemma ParseIntOfSignedDigits(negative: bool, digits: string, rest: string)
    requires digits != [] && AllDigits(digits)
    requires rest == [] || !IsDigit(rest[0])
    ensures ParseInt(SignText(negative) + digits + rest)
         == Some(SignedValue(negative, DigitsValue(digits)))
  {
    var u := digits + rest;
    assert u[0] == digits[0];
    SignOfSignText(negative, u);
    var s := SignText(negative) + u;
    assert s == SignText(negative) + digits + rest;
    assert s[0] == '-' || IsDigit(s[0]);
    TrimStartOfNonSpace(s);
    LeadingDigitsOfDigitsThenOther(digits, rest);
    ParseIntByParts(s, negative, digits);
  }

  lemma ParseIntByParts(s: string, negative: bool, digits: string)
    requires JsText.TrimStart(s) == s
    requires SignLength(s) <= |s| && (SignLength(s) == 1 && s[0] == '-') == negative
    requires digits != [] && LeadingDigits(s[SignLength(s)..]) == digits
    ensures ParseInt(s) == Some(SignedValue(negative, DigitsValue(digits)))
  {
  }

  /** `parseInt` reads back what `toString` printed, whatever follows it that is not a digit. */
  lemma ParseIntAfterIntToString(n: int, rest: string)
    requires rest == [] || !IsDigit(rest[0])
    ensures ParseInt(IntToString(n) + rest) == Some(n)
  {
    var m: nat := if n < 0 then -n else n;
    assert IntToString(n) == SignText(n < 0) + NatToString(m);
    ParseIntOfSignedDigits(n < 0, NatToString(m), rest);
  }

  lemma TrimStartOfNonSpace(s: string)
    requires s != [] && (s[0] == '-' || IsDigit(s[0]))
    ensures JsText.TrimStart(s) == s
  {
    assert !JsText.IsSpace(s[0]);
  }

  lemma ParseIntOfIntToString(n: int)
    ensures ParseInt(IntToString(n)) == Some(n)
  {
    ParseIntAfterIntToString(n, "");
    assert IntToString(n) + "" == IntToString(n);
  }

  /** A decimal number as sign, integer part and fraction digits. */
  datatype Decimal = Decimal(negative: bool, whole: nat, fraction: string)

  /** The form JavaScript prints: no trailing zero in the fraction and no negative zero. */
  predicate Canonical(d: Decimal) {
    && AllDigits(d.fraction)
    && (d.fraction == [] || d.fraction[|d.fraction| - 1] != '0')
    && (d.negative ==> d.whole != 0 || d.fraction != [])
  }

  /** The value of the digits after the decimal point. */
  function FractionValue(f: string): (r: real)
    requires AllDigits(f)
    ensures 0.0 <= r <= 1.0
  {
    if f == [] then 0.0 else (DigitValue(f[0]) as real + FractionValue(f[1..])) / 10.0
  }

  lemma {:induction false} FractionValueTrailingZero(f: string)
    requires AllDigits(f)
    ensures AllDigits(f + "0") && FractionValue(f + "0") == FractionValue(f)
  {
    if f != [] {
      assert (f + "0")[1..] == f[1..] + "0";
      FractionValueTrailingZero(f[1..]);
    }
  }

  function Magnitude(d: Decimal): real
    requires AllDigits(d.fraction)
  {
    d.whole as real + FractionValue(d.fraction)
  }

  /** The number a decimal stands for. */
  function Value(d: Decimal): real
    requires AllDigits(d.fraction)
  {
    if d.negative then -Magnitude(d) else Magnitude(d)
  }

  function StripTrailingZeros(f: string): (r: string)
    requires AllDigits(f)
    ensures r <= f && AllDigits(r)
    ensures r == [] || r[|r| - 1] != '0'
  {
    if f != [] && f[|f| - 1] == '0' then StripTrailingZeros(f[..|f| - 1]) else f
  }

  /** Dropping trailing zeros from a fraction does not change its value. */
  lemma {:induction false} StripTrailingZerosValue(f: string)
    requires AllDigits(f)
    ensures FractionValue(StripTrailingZeros(f)) == FractionValue(f)
  {
    if f != [] && f[|f| - 1] == '0' {
      var g := f[..|f| - 1];
      assert f == g + "0";
      FractionValueTrailingZero(g);
      StripTrailingZerosValue(g);
    }
  }

  /** The canonical decimal with the given sign, integer part and fraction digits. */
  function MakeDecimal(negative: bool, whole: nat, fraction: string): (d: Decimal)
    requires AllDigits(fraction)
    ensures Canonical(d)
  {
    var f := StripTrailingZeros(fraction);
    Decimal(negative && (whole != 0 || f != []), whole, f)
  }

  /** The canonical form stands for the number its sign, integer part and fraction digits give. */
  lemma MakeDecimalValue(negative: bool, whole: nat, fraction: string)
    requires AllDigits(fraction)
    ensures var m := whole as real + FractionValue(fraction);
            Value(MakeDecimal(negative, whole, fraction)) == if negative then -m else m
  {
    StripTrailingZerosValue(fraction);
  }

  /** The digits after a decimal point at the start of `v`, if there is one. */
  function PointDigits(v: string): (f: string)
    ensures AllDigits(f)
  {
    if v != [] && v[0] == '.' then LeadingDigits(v[1..]) else []
  }

  /** How many code units a point and its digits take at the start of `v`. */
  function PointLength(v: string): nat {
    if v != [] && v[0] == '.' then 1 + |PointDigits(v)| else 0
  }

  /** What an unsigned scan found: the integer part, the fraction digits and the length read. */
  datatype UnsignedScan = NoDigits | Unsigned(whole: nat, fraction: string, length: nat)

  /** What a signed scan found: the canonical decimal and the length read. */
  datatype DecimalScan = NotANumber | Scanned(decimal: Decimal, length: nat)

  /**
   * Reads an unsigned decimal literal at the start of `u`: digits, and an optional point followed
   * by digits, with at least one digit in all. Returns the integer part, the fraction digits and
   * how many code units it took.
   */
  function ScanUnsigned(u: string): (r: UnsignedScan)
    ensures r.Unsigned? ==> AllDigits(r.fraction) && r.length <= |u|
  {
    var w := LeadingDigits(u);
    var f := PointDigits(u[|w|..]);
    if w == [] && f == [] then NoDigits
    else Unsigned(DigitsValue(w), f, |w| + PointLength(u[|w|..]))
  }

  /** Reads a signed decimal literal at the start of `t`; returns it and how many code units it took. */
  function ScanDecimal(t: string): (r: DecimalScan)
    ensures r.Scanned? ==> Canonical(r.decimal) && r.length <= |t|
  {
    var k := SignLength(t);
    var r := ScanUnsigned(t[k..]);
    if r.NoDigits? then NotANumber
    else Scanned(MakeDecimal(k == 1 && t[0] == '-', r.whole, r.fraction), k + r.length)
  }

  /** `parseFloat(s)` as an exact decimal; `None` is `NaN`. Exponents and `Infinity` are not read. */
  function ParseDecimal(s: string): (r: Option<Decimal>)
    ensures r.Some? ==> Canonical(r.value)
  {
    match ScanDecimal(JsText.TrimStart(s))
    case Scanned(d, _) => Some(d)
    case NotANumber => None
  }

  /** `parseFloat(s)`; `None` is `NaN`. */
  function ParseFloat(s: string): Option<real> {
    match ParseDecimal(s)
    case Some(d) => Some(Value(d))
    case None => None
  }

  /** `x.toString()` for a number given in canonical decimal form. */
  function DecimalToString(d: Decimal): (r: string)
    requires AllDigits(d.fraction)
    ensures r != []
  {
    SignText(d.negative) + (NatToString(d.whole) + FractionTail(d.fraction))
  }

  function FractionTail(f: string): string {
    if f == [] then "" else "." + f
  }

  /** A point and fraction digits as `toString` prints them scan back as those digits. */
  lemma PointOfFractionTail(f: string)
    requires AllDigits(f)
    ensures PointDigits(FractionTail(f)) == f
  {
    if f != [] {
      assert FractionTail(f)[1..] == f + "";
      LeadingDigitsOfDigitsThenOther(f, "");
    }
  }

  lemma ScanUnsignedByParts(u: string, digits: string, tail: string, f: string)
    requires digits != [] && LeadingDigits(u) == digits && u[|digits|..] == tail
    requires PointDigits(tail) == f
    ensures ScanUnsigned(u).Unsigned?
    ensures ScanUnsigned(u).whole == DigitsValue(digits) && ScanUnsigned(u).fraction == f
  {
  }

  /** Digits followed by a point and fraction digits scan as their value and those digits. */
  lemma ScanUnsignedOfDigits(digits: string, f: string)
    requires digits != [] && AllDigits(digits) && AllDigits(f)
    ensures var r := ScanUnsigned(digits + FractionTail(f));
            r.Unsigned? && r.whole == DigitsValue(digits) && r.fraction == f
  {
    var tail := FractionTail(f);
    assert tail == [] || tail[0] == '.';
    LeadingDigitsOfDigitsThenOther(digits, tail);
    PointOfFractionTail(f);
    assert (digits + tail)[|digits|..] == tail;
    ScanUnsignedByParts(digits + tail, digits, tail, f);
  }

  /** The sign `toString` prints is read back as that sign, and the scan goes on after it. */
  lemma SignOfSignText(negative: bool, u: string)
    requires u != [] && IsDigit(u[0])
    ensures var t := SignText(negative) + u;
            && SignLength(t) == |SignText(negative)|
            && t[SignLength(t)..] == u
            && (SignLength(t) == 1 && t[0] == '-') == negative
  {
    var t := SignText(negative) + u;
    assert t[0] == if negative then '-' else u[0];
  }

  lemma ScanDecimalByParts(t: string, negative: bool, u: string, whole: nat, f: string)
    requires SignLength(t) <= |t| && t[SignLength(t)..] == u
    requires (SignLength(t) == 1 && t[0] == '-') == negative
    requires AllDigits(f) && ScanUnsigned(u).Unsigned?
    requires ScanUnsigned(u).whole == whole && ScanUnsigned(u).fraction == f
    ensures ScanDecimal(t).Scanned? && ScanDecimal(t).decimal == MakeDecimal(negative, whole, f)
  {
  }

  lemma MakeDecimalOfCanonical(d: Decimal)
    requires Canonical(d)
    ensures MakeDecimal(d.negative, d.whole, d.fraction) == d
  {
    assert StripTrailingZeros(d.fraction) == d.fraction;
  }

  /** A canonical decimal's sign followed by digits that scan as its magnitude scans back to it. */
  lemma ScanDecimalOfSigned(d: Decimal, u: string)
    requires Canonical(d) && u != [] && IsDigit(u[0])
    requires ScanUnsigned(u).Unsigned?
    requires ScanUnsigned(u).whole == d.whole && ScanUnsigned(u).fraction == d.fraction
    ensures ScanDecimal(SignText(d.negative) + u).Scanned?
    ensures ScanDecimal(SignText(d.negative) + u).decimal == d
  {
    SignOfSignText(d.negative, u);
    MakeDecimalOfCanonical(d);
    ScanDecimalByParts(SignText(d.negative) + u, d.negative, u, d.whole, d.fraction);
  }

  /** The decimal scanner reads back what `toString` printed. */
  lemma ScanDecimalToString(d: Decimal)
    requires Canonical(d)
    ensures ScanDecimal(DecimalToString(d)).Scanned?
    ensures ScanDecimal(DecimalToString(d)).decimal == d
  {
    var digits := NatToString(d.whole);
    var u := digits + FractionTail(d.fraction);
    ScanUnsignedOfDigits(digits, d.fraction);
    assert u[0] == digits[0];
    assert DecimalToString(d) == SignText(d.negative) + u;
    ScanDecimalOfSigned(d, u);
  }

  /** `parseFloat` reads back what `toString` printed. */
  lemma ParseDecimalOfDecimalToString(d: Decimal)
    requires Canonical(d)
    ensures ParseDecimal(DecimalToString(d)) == Some(d)
  {
    ScanDecimalToString(d);
    var t := DecimalToString(d);
    assert t[0] == '-' || IsDigit(t[0]);
    TrimStartOfNonSpace(t);
  }

  /** `parseFloat` reads an integer's `toString` back as that integer. */
  lemma ParseFloatOfIntToString(n: int)
    ensures ParseFloat(IntToString(n)) == Some(n as real)
  {
    var d := Decimal(n < 0, if n < 0 then -n else n, "");
    assert ParseDecimal(IntToString(n)) == Some(d) by {
      assert DecimalToString(d) == IntToString(n);
      ParseDecimalOfDecimalToString(d);
    }
    assert Value(d) == n as real;
  }

  /**
   * `Number(s)` for a string: the trimmed string must be empty (giving 0) or one whole decimal
   * literal; anything else is `NaN` (`None`).
   */
  function StringToNumber(s: string): Option<real> {
    var t := JsText.Trim(s);
    if t == [] then Some(0.0)
    else
      match ScanDecimal(t)
      case Scanned(d, n) => if n == |t| then Some(Value(d)) else None
      case NotANumber => None
  }

  /** The values a form holds in a field: a string, a number, `NaN` or `null`. */
  datatype JsValue = Str(s: string) | Num(x: real) | NaN | Null

  /** The number `<` and `>` compare when a form value meets a number literal; `None` is `NaN`. */
  function ToNumber(v: JsValue): Option<real> {
    match v
    case Str(s) => StringToNumber(s)
    case Num(x) => Some(x)
    case NaN => None
    case Null => Some(0.0)
  }

  /** JavaScript's `v < bound` for a number literal `bound`; a comparison with `NaN` is false. */
  predicate LessThan(v: JsValue, bound: real) {
    match ToNumber(v)
    case Some(x) => x < bound
    case None => false
  }

  predicate GreaterThan(v: JsValue, bound: real) {
    match ToNumber(v)
    case Some(x) => x > bound
    case None => false
  }

  /** Rounding toward zero, which is what `parseInt(String(x))` does to a plain number. */
  function Truncate(x: real): (n: int)
    ensures x >= 0.0 ==> 0 <= n && n as real <= x < n as real + 1.0
    ensures x < 0.0 ==> n <= 0 && n as real - 1.0 < x <= n as real
  {
    if x >= 0.0 then x.Floor else -((-x).Floor)
  }

  /** `parseInt(v)`: `v` is turned into a string first, so `null` and `NaN` read as `NaN`. */
  function ParseIntValue(v: JsValue): Option<int> {
    match v
    case Str(s) => ParseInt(s)
    case Num(x) => Some(Truncate(x))
    case NaN => None
    case Null => None
  }

  /** `parseFloat(v)`. */
  function ParseFloatValue(v: JsValue): Option<real> {
    match v
    case Str(s) => ParseFloat(s)
    case Num(x) => Some(x)
    case NaN => None
    case Null => None
  }

  /** `n || fallback` for a parse result: `NaN` and zero (of either sign) are falsy. */
  function IntOr(n: Option<int>, fallback: int): int {
    if n.Some? && n.value != 0 then n.value else fallback
  }

  function RealOr(x: Option<real>, fallback: real): real {
    if x.Some? && x.value != 0.0 then x.value else fallback
  }
}

=== FILE: js_text.dfy ===
/**
 * The JavaScript string built-ins the views use: `toLowerCase`, `includes`, `trim` and
 * `localeCompare`. Strings are sequences of UTF-16 code units, written `string` here.
 */
module JsText {

  /** `String.prototype.toLowerCase` on one code unit; only the ASCII letters are folded. */
  function LowerChar(c: char): char {
    if 'A' <= c <= 'Z' then (c as int - 'A' as int + 'a' as int) as char else c
  }

  /** `s.toLowerCase()`: every code unit folded on its own. */
  function ToLower(s: string): (r: string)
    ensures |r| == |s|
    ensures forall i :: 0 <= i < |s| ==> r[i] == LowerChar(s[i])
  {
    if s == [] then [] else [LowerChar(s[0])] + ToLower(s[1..])
  }

  /** `s.includes(t)`: `t` occurs in `s` at some position, scanning from the left. */
  function Includes(s: string, t: string): bool {
    t <= s || (s != [] && Includes(s[1..], t))
  }

  /** The scan agrees with the plain definition of a substring. */
  lemma {:induction false} IncludesIffOccurs(s: string, t: string)
    ensures Includes(s, t) <==> exists i :: 0 <= i <= |s| && t <= s[i..]
  {
    if t <= s {
      assert t <= s[0..];
    } else if s == [] {
      assert forall i :: 0 <= i <= |s| ==> s[i..] == [];
    } else {
      IncludesIffOccurs(s[1..], t);
      assert forall i :: 1 <= i <= |s| ==> s[i..] == s[1..][i - 1..];
      if exists i :: 0 <= i <= |s| && t <= s[i..] {
        var i :| 0 <= i <= |s| && t <= s[i..];
        assert i != 0;
        assert t <= s[1..][i - 1..];
      }
    }
  }

  /** The empty search term occurs in every string. */
  lemma IncludesEmpty(s: string)
    ensures Includes(s, "")
  {
  }

  /** The white-space and line-terminator code units that `trim` removes. */
  predicate IsSpace(c: char) {
    c == ' ' || 9 <= c as int <= 13 || c as int == 0xA0 || c as int == 0x1680
    || 0x2000 <= c as int <= 0x200A || c as int == 0x2028 || c as int == 0x2029
    || c as int == 0x202F || c as int == 0x205F || c as int == 0x3000 || c as int == 0xFEFF
  }

  predicate IsBlank(s: string) {
    forall i :: 0 <= i < |s| ==> IsSpace(s[i])
  }

  /** Leading white space removed; `parseInt` and `parseFloat` start here. */
  function TrimStart(s: string): string {
    if s != [] && IsSpace(s[0]) then TrimStart(s[1..]) else s
  }

  function TrimEnd(s: string): string {
    if s != [] && IsSpace(s[|s| - 1]) then TrimEnd(s[..|s| - 1]) else s
  }

  /** `String.prototype.trim`. */
  function Trim(s: string): string {
    TrimEnd(TrimStart(s))
  }

  /** `!s.trim()` holds exactly for strings made only of white space (the empty string included). */
  lemma {:induction false} TrimEmptyIffBlank(s: string)
    ensures Trim(s) == "" <==> IsBlank(s)
  {
    TrimStartEmptyIffBlank(s);
    var u := TrimStart(s);
    TrimStartHead(s);
    if u != [] {
      assert TrimEnd(u) != [] by {
        TrimEndKeepsNonSpaceHead(u);
      }
    }
  }

  lemma {:induction false} TrimStartEmptyIffBlank(s: string)
    ensures TrimStart(s) == "" <==> IsBlank(s)
  {
    if s != [] && IsSpace(s[0]) {
      TrimStartEmptyIffBlank(s[1..]);
      assert IsBlank(s) <==> IsBlank(s[1..]) by {
        assert forall i :: 1 <= i < |s| ==> s[i] == s[1..][i - 1];
      }
    }
  }

  /** What `TrimStart` leaves does not start with white space. */
  lemma {:induction false} TrimStartHead(s: string)
    ensures TrimStart(s) == [] || !IsSpace(TrimStart(s)[0])
  {
    if s != [] && IsSpace(s[0]) {
      TrimStartHead(s[1..]);
    }
  }

  lemma {:induction false} TrimEndKeepsNonSpaceHead(u: string)
    requires u != [] && !IsSpace(u[0])
    ensures TrimEnd(u) != []
  {
    if IsSpace(u[|u| - 1]) {
      assert |u| > 1;
      TrimEndKeepsNonSpaceHead(u[..|u| - 1]);
    }
  }

  /**
   * `a.localeCompare(b)`, reduced to its sign. Locale collation is not modelled: code-unit order stands
   * in for it, which keeps the two properties `Array.prototype.sort` relies on (a total preorder).
   */
  function LocaleCompare(a: string, b: string): (r: int)
    ensures -1 <= r <= 1
  {
    if a == [] then (if b == [] then 0 else -1)
    else if b == [] then 1
    else if a[0] < b[0] then -1
    else if a[0] > b[0] then 1
    else LocaleCompare(a[1..], b[1..])
  }

  lemma {:induction false} LocaleCompareAntisymmetric(a: string, b: string)
    ensures LocaleCompare(a, b) == -LocaleCompare(b, a)
  {
    if a != [] && b != [] && a[0] == b[0] {
      LocaleCompareAntisymmetric(a[1..], b[1..]);
    }
  }

  lemma {:induction false} LocaleCompareZeroIffEqual(a: string, b: string)
    ensures LocaleCompare(a, b) == 0 <==> a == b
  {
    if a != [] && b != [] && a[0] == b[0] {
      LocaleCompareZeroIffEqual(a[1..], b[1..]);
      assert a == [a[0]] + a[1..] && b == [b[0]] + b[1..];
    }
  }

  lemma {:induction false} LocaleCompareTransitive(a: string, b: string, c: string)
    requires LocaleCompare(a, b) <= 0 && LocaleCompare(b, c) <= 0
    ensures LocaleCompare(a, c) <= 0
  {
    if a != [] && b != [] && c != [] && a[0] == b[0] && b[0] == c[0] {
      LocaleCompareTransitive(a[1..], b[1..], c[1..]);
    }
  }
}

=== FILE: seqs.dfy ===
/** Sequence helpers shared by the views: `Array.prototype.filter` and reversal. */
module Seqs {

  /** `s.filter(keep)`: the elements of `s` that satisfy `keep`, in their original order. */
  function Filter<T>(s: seq<T>, keep: T -> bool): (r: seq<T>)
    ensures |r| <= |s|
  {
    if s == [] then [] else (if keep(s[0]) then [s[0]] else []) + Filter(s[1..], keep)
  }

  /** Filtering distributes over concatenation: the relative order of kept elements is the input order. */
  lemma {:induction false} FilterAppend<T>(s: seq<T>, t: seq<T>, keep: T -> bool)
    ensures Filter(s + t, keep) == Filter(s, keep) + Filter(t, keep)
  {
    if s != [] {
      assert (s + t)[1..] == s[1..] + t;
      FilterAppend(s[1..], t, keep);
    } else {
      assert s + t == t;
    }
  }

  /** Every occurrence of a kept value survives, and nothing else does. */
  lemma {:induction false} FilterCount<T>(s: seq<T>, keep: T -> bool, x: T)
    ensures multiset(Filter(s, keep))[x] == if keep(x) then multiset(s)[x] else 0
  {
    if s != [] {
      FilterCount(s[1..], keep, x);
      assert s == [s[0]] + s[1..];
    }
  }

  lemma FilterMembership<T>(s: seq<T>, keep: T -> bool, x: T)
    ensures x in Filter(s, keep) <==> x in s && keep(x)
  {
    FilterCount(s, keep, x);
    assert x in Filter(s, keep) <==> multiset(Filter(s, keep))[x] > 0;
    assert x in s <==> multiset(s)[x] > 0;
  }

  /** A filter that keeps every element is the identity. */
  lemma {:induction false} FilterKeepsAll<T>(s: seq<T>, keep: T -> bool)
    requires forall i :: 0 <= i < |s| ==> keep(s[i])
    ensures Filter(s, keep) == s
  {
    if s != [] {
      FilterKeepsAll(s[1..], keep);
    }
  }

  /** Two predicates that agree on the elements of `s` filter it alike. */
  lemma {:induction false} FilterCongruent<T>(s: seq<T>, p: T -> bool, q: T -> bool)
    requires forall i :: 0 <= i < |s| ==> p(s[i]) == q(s[i])
    ensures Filter(s, p) == Filter(s, q)
  {
    if s != [] {
      FilterCongruent(s[1..], p, q);
    }
  }

  function Reverse<T>(s: seq<T>): (r: seq<T>)
    ensures |r| == |s|
    ensures forall i :: 0 <= i < |s| ==> r[i] == s[|s| - 1 - i]
  {
    if s == [] then [] else Reverse(s[1..]) + [s[0]]
  }

  lemma ReverseMultiset<T>(s: seq<T>)
    ensures multiset(Reverse(s)) == multiset(s)
  {
    if s != [] {
      ReverseMultiset(s[1..]);
      assert s == [s[0]] + s[1..];
    }
  }
}

=== FILE: view_products.dfy ===
/**
 * The catalog page (src/components/ViewProducts.js) as an object: its state hooks become fields,
 * its handlers become methods, and what it renders is a function of those fields.
 */
module ViewProducts {
  import opened Wrappers
  import Seqs
  import opened Catalog
  import opened CatalogSort
  import opened CatalogGroup

  const DeleteFailedMessage := "Failed to delete product. Please try again."
  const LoadFailedMessage := "Failed to load products. Please try again later."

  /**
   * The sort state `handleSort(clicked)` leaves: the list is then sorted by `clicked`; the current
   * field flips the order and another field starts ascending. The page defines `handleSort` but
   * wires it to no control, so as rendered it always sorts by name, ascending.
   */
  function SortToggle(sortBy: SortField, sortOrder: SortOrder, clicked: SortField): (r: (SortField, SortOrder))
    ensures r.0 == clicked
    ensures sortBy == clicked ==> r.1 != sortOrder
    ensures sortBy != clicked ==> r.1 == Asc
  {
    if sortBy == clicked then (sortBy, if sortOrder == Asc then Desc else Asc)
    else (clicked, Asc)
  }

  /** Two calls on the current field bring the sort state back. */
  lemma SortToggleTwiceRestores(sortBy: SortField, sortOrder: SortOrder, clicked: SortField)
    requires sortBy == clicked
    ensures var once := SortToggle(sortBy, sortOrder, clicked);
            SortToggle(once.0, once.1, clicked) == (sortBy, sortOrder)
  {
  }

  /** `products.filter(product => product.id !== productId)`. */
  function RemoveById(products: seq<Product>, id: int): seq<Product> {
    Seqs.Filter(products, (p: Product) => p.id != id)
  }

  /**
   * Deleting drops every product carrying the id and keeps every other one, as often as it
   * occurred.
   */
  lemma RemoveByIdSpec(products: seq<Product>, id: int, p: Product)
    ensures p in RemoveById(products, id) <==> p in products && p.id != id
    ensures p.id != id ==> multiset(RemoveById(products, id))[p] == multiset(products)[p]
  {
    Seqs.FilterCount(products, (q: Product) => q.id != id, p);
    Seqs.FilterMembership(products, (q: Product) => q.id != id, p);
  }

  /** Deleting an id that no product carries leaves the list as it was. */
  lemma RemoveAbsentId(products: seq<Product>, id: int)
    requires forall i :: 0 <= i < |products| ==> products[i].id != id
    ensures RemoveById(products, id) == products
  {
    Seqs.FilterKeepsAll(products, (p: Product) => p.id != id);
  }

  /** What the page shows. */
  datatype Screen =
    | Spinner
    | ErrorScreen(message: string)
    | EmptyState
    | CategoryGrid(groups: seq<Group>)

  /** Filter, then sort, then group: the products in the order the grid lays them out. */
  function Pipeline(products: seq<Product>, term: string, selected: string, field: SortField,
                    order: SortOrder): seq<Group> {
    Grouped(SortProducts(FilterProducts(products, term, selected), field, order))
  }

  /**
   * A product appears in the grid exactly when it passes the filter, and then in exactly one
   * category section; the sections hold as many cards as the filter kept.
   */
  lemma PipelineSpec(products: seq<Product>, term: string, selected: string, field: SortField,
                     order: SortOrder, p: Product)
    ensures var groups := Pipeline(products, term, selected, field, order);
            (exists i :: 0 <= i < |groups| && p in groups[i].items)
            <==> p in products && Shown(p, term, selected)
    ensures var groups := Pipeline(products, term, selected, field, order);
            forall i, j :: (0 <= i < |groups| && 0 <= j < |groups| &&
                            p in groups[i].items && p in groups[j].items) ==> i == j
    ensures TotalSize(Pipeline(products, term, selected, field, order))
         == |FilterProducts(products, term, selected)|
  {
    var filtered := FilterProducts(products, term, selected);
    var sorted := SortProducts(filtered, field, order);
    var groups := Grouped(sorted);
    SortIsPermutation(filtered, field, order);
    FilterSpec(products, term, selected, p);
    assert p in sorted <==> p in filtered by {
      assert p in sorted <==> multiset(sorted)[p] > 0;
      assert p in filtered <==> multiset(filtered)[p] > 0;
    }
    if p in sorted {
      ExactlyOneGroup(sorted, p);
    } else {
      forall i | 0 <= i < |groups|
        ensures p !in groups[i].items
      {
        Seqs.FilterMembership(sorted, q => CategoryKey(q) == Keys(sorted)[i], p);
      }
    }
    GroupSizesSum(sorted);
  }

  class ProductsView {
    var products: seq<Product>
    var loading: bool
    var error: Option<string>
    var searchTerm: string
    var selectedCategory: string
    var sortBy: SortField
    var sortOrder: SortOrder
    var deleteLoading: Option<int>

    /** The hooks' initial values. */
    constructor ()
      ensures products == [] && loading && error == None
      ensures searchTerm == "" && selectedCategory == ""
      ensures sortBy == ByName && sortOrder == Asc && deleteLoading == None
    {
      products := [];
      loading := true;
      error := None;
      searchTerm := "";
      selectedCategory := "";
      sortBy := ByName;
      sortOrder := Asc;
      deleteLoading := None;
    }

    /** `loadProducts` once its request is settled: `fetched` is the list, or `None` on failure. */
    method LoadProducts(fetched: Option<seq<Product>>)
      modifies this
      ensures fetched.Some? ==> products == fetched.value && error == None
      ensures fetched.None? ==> products == old(products) && error == Some(LoadFailedMessage)
      ensures !loading
      ensures searchTerm == old(searchTerm) && selectedCategory == old(selectedCategory)
      ensures sortBy == old(sortBy) && sortOrder == old(sortOrder) && deleteLoading == old(deleteLoading)
    {
      loading := true;
      error := None;
      if fetched.Some? {
        products := fetched.value;
      } else {
        error := Some(LoadFailedMessage);
      }
      loading := false;
    }

    /** `handleSort(field)`; no control of the page calls it. */
    method HandleSort(field: SortField)
      modifies this
      ensures (sortBy, sortOrder) == SortToggle(old(sortBy), old(sortOrder), field)
      ensures products == old(products) && loading == old(loading) && error == old(error)
      ensures searchTerm == old(searchTerm) && selectedCategory == old(selectedCategory)
      ensures deleteLoading == old(deleteLoading)
    {
      if sortBy == field {
        sortOrder := if sortOrder == Asc then Desc else Asc;
      } else {
        sortBy := field;
        sortOrder := Asc;
      }
    }

    /** The search box's `onChange`: `setSearchTerm(e.target.value)`. */
    method SetSearchTerm(term: string)
      modifies this
      ensures searchTerm == term
      ensures products == old(products) && loading == old(loading) && error == old(error)
      ensures selectedCategory == old(selectedCategory) && deleteLoading == old(deleteLoading)
      ensures sortBy == old(sortBy) && sortOrder == old(sortOrder)
    {
      searchTerm := term;
    }

    /** The category select's `onChange`: `setSelectedCategory(e.target.value)`. */
    method SetSelectedCategory(category: string)
      modifies this
      ensures selectedCategory == category
      ensures products == old(products) && loading == old(loading) && error == old(error)
      ensures searchTerm == old(searchTerm) && deleteLoading == old(deleteLoading)
      ensures sortBy == old(sortBy) && sortOrder == old(sortOrder)
    {
      selectedCategory := category;
    }

    /**
     * `handleDelete(productId)`: `confirmed` is the answer to the confirmation dialog and
     * `deleted` whether `DELETE /products/{id}` succeeded. A declined dialog changes nothing.
     */
    method HandleDelete(productId: int, confirmed: bool, deleted: bool)
      modifies this
      ensures !confirmed ==> products == old(products) && error == old(error)
                             && deleteLoading == old(deleteLoading)
      ensures confirmed ==> deleteLoading == None && forall id :: !DeleteDisabled(id)
      ensures confirmed && deleted ==> products == RemoveById(old(products), productId) && error == old(error)
      ensures confirmed && !deleted ==> products == old(products) && error == Some(DeleteFailedMessage)
      ensures loading == old(loading) && searchTerm == old(searchTerm)
      ensures selectedCategory == old(selectedCategory)
      ensures sortBy == old(sortBy) && sortOrder == old(sortOrder)
    {
      if !confirmed {
        return;
      }
      deleteLoading := Some(productId);
      if deleted {
        products := RemoveById(products, productId);
      } else {
        error := Some(DeleteFailedMessage);
      }
      deleteLoading := None;
    }

    /**
     * The delete button of product `id` is disabled while its own deletion is pending, and then
     * no other product's button is.
     */
    predicate DeleteDisabled(id: int)
      reads this
      ensures DeleteDisabled(id) ==> deleteLoading.Some? && deleteLoading.value == id
      ensures DeleteDisabled(id) ==> forall other :: other != id ==> Some(other) != deleteLoading
    {
      deleteLoading == Some(id)
    }

    /** What the page renders for the current state. */
    function CurrentScreen(): (screen: Screen)
      reads this
      ensures screen.Spinner? <==> loading
      ensures screen.ErrorScreen? <==> !loading && error.Some?
      ensures screen.ErrorScreen? ==> Some(screen.message) == error
      ensures screen.EmptyState? <==> !loading && error.None? && FilterProducts(products, searchTerm, selectedCategory) == []
      ensures screen.CategoryGrid? ==> screen.groups == Pipeline(products, searchTerm, selectedCategory, sortBy, sortOrder)
    {
      if loading then Spinner
      else if error.Some? then ErrorScreen(error.value)
      else if FilterProducts(products, searchTerm, selectedCategory) == [] then EmptyState
      else CategoryGrid(Pipeline(products, searchTerm, selectedCategory, sortBy, sortOrder))
    }

    /** The grid's sections, computed the way the page does it: filter, sort, then the grouping loop. */
    method GroupedProducts() returns (groups: seq<Group>)
      ensures groups == Pipeline(products, searchTerm, selectedCategory, sortBy, sortOrder)
    {
      var filtered := FilterProducts(products, searchTerm, selectedCategory);
      var sorted := SortProducts(filtered, sortBy, sortOrder);
      groups := GroupByCategory(sorted);
    }
  }

  /** Whenever the grid is shown it has at least one section, and never an empty one. */
  lemma GridSectionsNonEmpty(products: seq<Product>, term: string, selected: string, field: SortField,
                             order: SortOrder)
    requires FilterProducts(products, term, selected) != []
    ensures var groups := Pipeline(products, term, selected, field, order);
            groups != [] && forall i :: 0 <= i < |groups| ==> groups[i].items != []
  {
    var filtered := FilterProducts(products, term, selected);
    var sorted := SortProducts(filtered, field, order);
    SortIsPermutation(filtered, field, order);
    GroupSizesSum(sorted);
    var groups := Grouped(sorted);
    assert groups != [];
    forall i | 0 <= i < |groups|
      ensures groups[i].items != []
    {
      var key := Keys(sorted)[i];
      KeysCover(sorted, key);
      var n :| 0 <= n < |sorted| && CategoryKey(sorted[n]) == key;
      Seqs.FilterMembership(sorted, q => CategoryKey(q) == key, sorted[n]);
    }
  }
}

=== FILE: wrappers.dfy ===
/** The optional value used for JavaScript's `undefined`/`null` and for `NaN` parse results. */
module Wrappers {

  datatype Option<+T> = None | Some(value: T)
}
